=== FILE: README.md ===
# Exposures by Gabe — a Dafny model of the gallery, gate and upload logic

The site is a static photography portfolio with three browser pages: the
public gallery, an upload page behind a password, and an admin page behind
another password. The logic worth modelling is a set of small, deterministic
rules inside browser glue:

- the gallery's tag model (`js/gallery-manager.js`, `js/admin-gallery.js`):
  default tags and titles derived from a file name, the capture date read
  from the file name, the merge of saved per-file metadata onto those
  defaults, the sorted tag list, the case-insensitive tag filter, and the
  admin metadata editor with its comma-separated tag field;
- the password gate (`js/auth.js`, `js/admin.js`): a session record in
  local storage, checked against an explicit clock reading, opened by a
  password compared through `btoa`, extended on activity and removed on
  logout; and the admin page's site-content document, a shallow overlay of
  stored sections onto defaults;
- the upload list (`js/upload.js` with `SecurityUtils` in `js/auth.js`):
  type and size screening, appending, deleting the first record with an id,
  clearing, and the stored copy of the list without its object URLs.

Everything is immutable datatypes and pure functions. Local storage is a
`Slot<T>` per key: `Absent` (a missing key or the empty string, which every
reader treats alike), `Corrupt` (other text that does not parse) or
`Stored(value)`. Clock readings, the current year, object URLs, data URLs,
the success of a simulated upload and the answers to confirmation dialogs
are parameters. JavaScript built-ins the rules rely on are modelled in
`Text` (`toLowerCase`, `trim`, `split`, `join`, `includes`, `startsWith`,
`String(n)`, `parseInt`), `StringOrder` (the default `Array.prototype.sort`
order) and `Base64` (`btoa`, as Base64 of section 4 of RFC 4648 over
Latin-1 code units, proved injective).

Modules: `Common` (Option, Slot), `Text`, `StringOrder`, `Base64`,
`Session`, `FilenameRules`, `Keywords`, `CaptureDate`, `Gallery`,
`TagIndex`, `GalleryEditor`, `FileChecks`, `SiteContent`, `Uploads`,
`UploadPage`.

## Model

| member | source | states |
|---|---|---|
| Text.Lower | js/gallery-manager.js:184 | `toLowerCase` keeps the length and lower-cases each character on its own |
| Text.LowerIsLowerCase | js/gallery-manager.js:239 | a lower-cased string is left alone by lower-casing again |
| Text.LowerOfLowerCase | js/gallery-manager.js:249 | lower-casing a lower-case string is the identity |
| Text.Trim | js/auth.js:74 | `trim` gives a slice of the input with no whitespace at either end and only whitespace around it |
| Text.TrimOfTrimmed | js/admin-gallery.js:151 | trimming a trimmed string changes nothing |
| Text.TrimAfterSpace | js/admin-gallery.js:153 | a trimmed string after one whitespace character trims back to itself |
| Text.TrimEmptyIffAllSpace | js/auth.js:74-83 | `trim` gives the empty string exactly for all-whitespace input |
| Text.LowerKeepsTrimmed | js/admin-gallery.js:153 | lower-casing a trimmed string keeps it trimmed |
| Text.Split | js/admin-gallery.js:153 | `split(',')` gives at least one piece and no piece contains the separator |
| Text.SplitConcat | js/admin-gallery.js:153 | splitting at a separator splits each side independently |
| Text.SplitWithoutSeparator | js/admin-gallery.js:153 | a string without the separator splits into itself alone |
| Text.SplitJoin | js/admin-gallery.js:128 | joining separator-free pieces and splitting again gives the pieces back |
| Text.JoinSplit | js/admin-gallery.js:153 | splitting and joining again gives the string back |
| Text.NatToString | js/auth.js:277 | `String(n)` is a non-empty run of digits without a leading zero |
| Text.DecimalRoundTrip | js/gallery-manager.js:145-147 | `parseInt` of `String(n)` is `n` |
| Text.IntToString | js/auth.js:277 | `String(i)` starts with a minus sign exactly when `i` is negative, and the digits after it parse back to the magnitude of `i` |
| StringOrder.LessIrreflexive | js/gallery-manager.js:242 | no tag sorts before itself |
| StringOrder.LessTransitive | js/gallery-manager.js:242 | the sort order is transitive |
| StringOrder.LessTotal | js/gallery-manager.js:242 | any two different tags are ordered one way or the other |
| StringOrder.LessAsymmetric | js/gallery-manager.js:242 | the order is asymmetric |
| StringOrder.LessIsUtf16Order | js/gallery-manager.js:242 | the order used is exactly the default `sort` order, lexicographic on UTF-16 code units |
| Base64.Encode | js/auth.js:86 | the encoding has four characters per started group of three bytes |
| Base64.DecodeEncode | js/auth.js:86 | decoding undoes encoding for every byte sequence |
| Base64.EncodeInjective | js/auth.js:86-87 | two byte sequences with the same encoding are equal |
| Base64.Btoa | js/auth.js:86 | `btoa` succeeds exactly on Latin-1 text, and its result decodes to the text's code units |
| Base64.BtoaInjective | js/auth.js:86-87 | different passwords never share an encoding, so comparing encodings compares passwords |
| Session.CheckStatus | js/auth.js:43-66 | the gate is open exactly when a parsable, unexpired record is stored (`now` equal to the expiry still counts); a failed check leaves no record; `checkAdminAuthStatus` (js/admin.js:53-76) is the same rule |
| Session.ExpiryBoundary | js/admin.js:65-68 | one millisecond past the expiry is locked, the expiry itself and before are open |
| Session.CheckStatusIdempotent | js/admin.js:71-75 | a second check at the same instant changes nothing more |
| Session.EncodedAllowList | js/auth.js:4-8 | the encoded allow-list holds exactly the encodings of the listed passwords |
| Session.Authenticate | js/auth.js:69-113 | an empty trimmed password is refused; a refused or failed login writes nothing; a granted one writes a record with the password's encoding, the first clock reading as timestamp and the second plus 24 h as expiry |
| Session.GrantedIffListed | js/auth.js:86-89 | with an injective encoding, a login is granted exactly when the trimmed password is non-empty and on the allow-list |
| Session.AdminLoginIff | js/admin.js:96-99 | the admin page admits exactly admin123, content and manager (after trimming) |
| Session.UploadLoginIff | js/auth.js:86-89 | the upload page admits exactly upload123, portfolio and secret (after trimming) |
| Session.LoginOpensGate | js/admin.js:101-107 | after a granted login the expiry is at least a day after the timestamp and the gate stays open until then |
| Session.StoredHashRevealsPassword | js/auth.js:91-96 | the stored `passwordHash` decodes back to the password |
| Session.Logout | js/auth.js:180-184 | after logout every check fails, at every clock reading |
| Session.ExtendSession | js/auth.js:211-223 | a stored record gets expiry `now + 24 h` and keeps every other field; no record, or one that does not parse, is left alone |
| Session.ExtendKeepsOpen | js/auth.js:211-223 | after an extension at `now` the gate is open exactly up to `now + 24 h` |
| Session.OnActivity | js/auth.js:229-233 | the activity timer leaves either no record or one extended from `now`, the latter exactly when the check passed |
| FilenameRules.FindExtension | js/gallery-manager.js:171 | the leftward scan finds the start of `\.[^/.]+$` when there is one, and reports none otherwise |
| FilenameRules.StripExtension | js/gallery-manager.js:184 | the name loses exactly its final extension, or is kept whole when it has none |
| FilenameRules.ExtensionUnique | js/gallery-manager.js:171 | at most one position can start the extension |
| FilenameRules.DashesToSpaces | js/gallery-manager.js:172 | every dash and underscore becomes a space and nothing else changes |
| FilenameRules.TitleFromFilename | js/gallery-manager.js:169-174 | the title has the stripped name's length, no dashes or underscores, an upper-case start to every word and every other character unchanged |
| FilenameRules.TitleOnlyChangesCase | js/gallery-manager.js:173 | the title and the spaced name agree once lower-cased |
| FilenameRules.AltFromFilename | js/gallery-manager.js:177-180 | the alt text ends in " photograph"; before that it is the name without its extension, with dashes and underscores as spaces, with every word start upper-cased and nothing else changed (js/gallery-manager.js:168-174; the loader builds its alt text from the title instead, `Gallery.DetectImage`) |
| Keywords.KeywordFrom | js/gallery-manager.js:199-203 | finds the first table row, in table order, whose keyword the name contains, or reports that none does |
| Keywords.TagsFromFilename | js/gallery-manager.js:183-207 | the default tags are never empty: the row of the first keyword in the lower-cased name without extension, or `photography` |
| Keywords.DefaultTagsAreClean | js/gallery-manager.js:185-196 | every default tag is non-empty, lower-case, trimmed and comma-free |
| Keywords.TableTagsAreClean | js/gallery-manager.js:185-196 | every tag in the keyword table is clean |
| CaptureDate.DaysInMonth | js/gallery-manager.js:150 | every month has 28 to 31 days |
| CaptureDate.JsDate | js/gallery-manager.js:150 | `new Date(y, m - 1, d)` is a real calendar date in the same year; it is `y-m-d` exactly when the day exists, otherwise it rolls into the next month |
| CaptureDate.FirstMatch | js/gallery-manager.js:143 | `match` finds the leftmost position where the pattern matches, or none |
| CaptureDate.TryPatterns | js/gallery-manager.js:142-154 | the patterns are tried in list order and a result exists exactly when some later pattern yields an in-range date |
| CaptureDate.ExtractDate | js/gallery-manager.js:132-157 | a returned date has a year from 1900 to the current year and is a real calendar date; no date is returned exactly when no pattern's first match passes the range check |
| CaptureDate.PrefixedMatchContainsPlain | js/gallery-manager.js:138-139 | wherever `IMG_` or `DSC` followed by eight digits matches, the plain eight-digit pattern matches too |
| CaptureDate.FebruaryThirtyFirst | js/gallery-manager.js:149-151 | `20210231.jpg` passes the range check and yields 3 March 2021 |
| Gallery.DetectImage | js/gallery-manager.js:91-129 | the alt text is the title plus " photograph"; default tags are non-empty and clean; a failed load has no date and the number title; a loaded one takes the date from the file name and is titled by it when there is one |
| Gallery.FallbackCategory | js/gallery-manager.js:64 | the fallback category is never empty |
| Gallery.Merge | js/gallery-manager.js:55-67 | id is the file name; saved title and category win only when non-empty; saved tags win whenever present, even empty; category otherwise falls back to the first default tag, then `photography` |
| Gallery.LoadImages | js/gallery-manager.js:55-67 | one merged record per detected image, in order |
| Gallery.MergeWithoutEntry | js/gallery-manager.js:56 | with nothing saved for a file its record is built from the defaults alone |
| Gallery.SaveMetadata | js/gallery-manager.js:210-221 | the saved overlay's keys are exactly the current file names |
| Gallery.SavedEntryIsLast | js/gallery-manager.js:212-218 | the entry saved for a file name is that of the last image carrying it |
| Gallery.ReloadIsStable | js/gallery-manager.js:55-67 | saving the merged records and merging again gives the same records, when file names are distinct |
| Gallery.StartGallery | js/gallery-manager.js:5-8 | unparsable saved metadata leaves no gallery; a saved `null` loads no image; otherwise every detected image is merged with the saved overlay (js/gallery-manager.js:55-67) |
| Gallery.NothingSavedGivesDefaults | js/gallery-manager.js:7 | with no saved metadata every record has the derived title, tags and category |
| Gallery.NullMetadataHidesImages | js/gallery-manager.js:56 | a saved `null` hides every detected image, which an absent key shows |
| Gallery.RestartIsStable | js/gallery-manager.js:5-8 | saving a started gallery and starting again from what was saved gives the same records, when file names are distinct |
| Gallery.FindIndex | js/gallery-manager.js:225 | the index found is the first with the file name, or there is none |
| Gallery.GetImageByFilename | js/gallery-manager.js:345-347 | nothing is found exactly when no image has the name; otherwise the first image with it |
| Gallery.Apply | js/gallery-manager.js:227 | `Object.assign` changes only the fields the update carries |
| Gallery.ApplyIdempotent | js/gallery-manager.js:227 | assigning the same update twice is assigning it once |
| Gallery.UpdateImageMetadata | js/gallery-manager.js:224-232 | an unknown file name changes nothing; otherwise only the first matching record changes, only in the updated fields, and the saved overlay covers exactly the current file names |
| Gallery.UpdateReplacesFound | js/gallery-manager.js:224-232 | the updated list is the old one with the found record replaced by its updated form |
| Gallery.UpdateIdempotent | js/gallery-manager.js:224-232 | applying the same update twice equals applying it once |
| Gallery.LookupAfterUpdate | js/gallery-manager.js:345-347 | after an update, looking the file up finds the updated record |
| TagIndex.Insert | js/gallery-manager.js:239-242 | adding a tag to a strictly sorted list keeps it strictly sorted and adds exactly that tag |
| TagIndex.InsertAll | js/gallery-manager.js:239 | adding an image's tags adds exactly their lower-case forms |
| TagIndex.GetAllTags | js/gallery-manager.js:235-243 | the tag list is strictly increasing (sorted, no duplicates) and holds a string exactly when some image has a tag lower-casing to it; images without tags contribute nothing |
| TagIndex.AllTagsLowerCase | js/gallery-manager.js:239 | every listed tag is lower-case |
| TagIndex.SortedListIsUnique | js/gallery-manager.js:242 | two strictly sorted lists with the same elements are equal |
| TagIndex.GetAllTagsIsTheSortedSet | js/gallery-manager.js:235-243 | the tag list is the one strictly sorted listing of the set of lower-cased tags |
| TagIndex.Select | js/gallery-manager.js:248-250 | the selection holds images of the list having the tag, and every such image |
| TagIndex.SelectAppend | js/gallery-manager.js:248-250 | selection keeps order: selecting from a concatenation concatenates the selections |
| TagIndex.FilterImages | js/gallery-manager.js:246-251 | the exact string `all` returns the list as it is; any other tag selects the images having it ignoring case |
| TagIndex.UntaggedNeverSelected | js/gallery-manager.js:249 | an image without tags is never selected by a tag |
| TagIndex.CapitalAllIsATag | js/gallery-manager.js:247 | `All` is not the sentinel and filters as the tag `all` |
| TagIndex.FilterIgnoresCase | js/gallery-manager.js:249 | tags differing only in case filter alike |
| TagIndex.ListedTagSelectsSome | js/gallery-manager.js:235-251 | every tag in the tag list selects at least one image |
| GalleryEditor.CleanPieces | js/admin-gallery.js:153 | the trimmed, lower-cased, non-blank pieces are all clean tags |
| GalleryEditor.ParseTags | js/admin-gallery.js:153 | every parsed tag is non-empty, lower-case, trimmed and comma-free |
| GalleryEditor.ParseTagsConcat | js/admin-gallery.js:153 | parsing keeps entry order: text on either side of a comma parses on its own |
| GalleryEditor.TagTextRoundTrip | js/admin-gallery.js:128 | parsing the editor text of clean tags gives the same tags back |
| GalleryEditor.ParseTagsKeepsDuplicates | js/admin-gallery.js:153 | parsing does not remove duplicates |
| GalleryEditor.EditImage | js/admin-gallery.js:107-138 | an unknown file name changes nothing; otherwise the image becomes current and the form shows its title, category and tag text |
| GalleryEditor.FormUpdate | js/admin-gallery.js:150-154 | a blank title keeps the current title, a blank category becomes `uncategorized`, and the tags are the parsed tag text |
| GalleryEditor.CancelEdit | js/admin-gallery.js:168-174 | after cancelling no image is current |
| GalleryEditor.SaveImageChanges | js/admin-gallery.js:141-165 | with no current image nothing happens; otherwise the current image's record is updated from the form and editing ends |
| GalleryEditor.FormOfShapedImage | js/admin-gallery.js:126-128 | the form of an image already in form shape reads back as an update that changes nothing |
| GalleryEditor.EditThenSaveKeepsImages | js/admin-gallery.js:107-165 | opening such an image and saving without touching the form leaves every record as it was |
| FileChecks.IsValidImageType | js/auth.js:265-268 | the type is valid exactly when it is one of the five listed strings |
| FileChecks.DefaultSizeBoundary | js/auth.js:271-273 | exactly 10 MiB is accepted, one byte more is not |
| FileChecks.KeepAlphanumeric | js/auth.js:277 | the filter keeps only ASCII letters and digits and keeps every one of them |
| FileChecks.KeepAlphanumericOne | js/auth.js:277 | one character is kept exactly when it is an ASCII letter or digit |
| FileChecks.KeepAlphanumericAppend | js/auth.js:277 | the filter works character by character, keeping order and repetitions: a string filters like its two halves concatenated |
| FileChecks.KeepAlphanumericOfAlphanumeric | js/auth.js:277 | the filter leaves a string of letters and digits alone |
| FileChecks.HashInputLatin1 | js/auth.js:277 | the hashed text is Latin-1 exactly when the name is |
| FileChecks.FileHash | js/auth.js:276-278 | a hash exists exactly when `btoa` accepts the name, and it holds only ASCII letters and digits |
| FileChecks.HashSeesOnlyTheConcatenation | js/auth.js:277 | files whose name, size and date run together alike share a hash |
| FileChecks.HashCollision | js/auth.js:277 | two different files (`a1` of 23 bytes, `a12` of 3 bytes) get the same id |
| SiteContent.Overlay | js/admin.js:236 | each section the document carries replaces the whole default section; missing sections keep it |
| SiteContent.GetSiteContent | js/admin.js:232-242 | no stored content, or content that does not parse, reads as the defaults; stored content is overlaid on them |
| SiteContent.SaveSiteContent | js/admin.js:245-256 | saving stores the current content with the patch's sections replaced |
| SiteContent.SaveThenGet | js/admin.js:245-256 | reading after a save sees the patch over what was there before |
| SiteContent.SaveNothingKeepsContent | js/admin.js:245-256 | an empty patch leaves the content as it reads |
| SiteContent.UpdateHero | js/admin.js:259-276 | nothing is saved exactly when a trimmed field is empty; otherwise only the hero section changes, to the trimmed fields |
| SiteContent.UpdateAbout | js/admin.js:279-296 | nothing is saved exactly when a trimmed paragraph is empty; otherwise only the about section changes |
| SiteContent.UpdateContact | js/admin.js:299-316 | nothing is saved exactly when a trimmed field is empty; otherwise only the contact section changes |
| SiteContent.WithPicture | js/admin.js:342-344 | setting one picture keeps the other |
| SiteContent.UploadPicture | js/admin.js:319-352 | no file does nothing; a type not starting with `image/` is refused first, then a size above 5 MiB; otherwise the file is accepted and only the chosen picture changes; `handlePortraitUpload` (js/admin.js:355-388) is the same with the portrait |
| SiteContent.PictureSizeBoundary | js/admin.js:328 | exactly 5 MiB is accepted, one byte more refused |
| SiteContent.PictureKeepsTheOther | js/admin.js:342-346 | setting the logo keeps the portrait and the other way round |
| Uploads.Rejection | js/upload.js:84-97 | a file is rejected exactly when it fails a check, with the type message when the type fails and the size message only otherwise |
| Uploads.HandleFiles | js/upload.js:81-102 | the files handed on are acceptable files of the input and include every acceptable one; every message is the rejection message of an input file, and there are as many messages as files not handed on |
| Uploads.HandleOneFile | js/upload.js:84-97 | a file alone is handed on when acceptable and otherwise yields exactly its one message |
| Uploads.HandleFilesAppend | js/upload.js:84-97 | screening is file by file and keeps order: a batch screens like its two halves concatenated |
| Uploads.ValidateImage | js/upload.js:402-414 | no message exactly when the file is acceptable; at most two; each message exactly when its check fails; the type message first |
| Uploads.ScreeningAgreesWithValidation | js/upload.js:81-102 | `handleFiles` passes a file on exactly when `validateImage` finds nothing wrong |
| Uploads.Metadata | js/upload.js:343-350 | the stored entry keeps id, name, upload date, size and type |
| Uploads.Project | js/upload.js:340-356 | the stored list has the same length and order, one metadata entry per image |
| Uploads.ProjectRestore | js/upload.js:340-356 | only the URL is lost: stored metadata and the URLs give the list back |
| Uploads.ProjectForgetsOnlyUrls | js/upload.js:340-356 | two lists with the same stored metadata differ at most in their URLs |
| Uploads.SaveImagesToStorage | js/upload.js:340-356 | the list is kept and its metadata stored |
| Uploads.AddImageToGallery | js/upload.js:167-179 | exactly one record is appended at the end and storage mirrors the list; a name `btoa` cannot encode adds nothing |
| Uploads.UploadFiles | js/upload.js:105-147 | earlier records stay untouched and at most one record per file is appended; which ones, in which order, is stated by `Uploads.UploadAppendsAdded` (a failed transfer or an unhashable name adds nothing) |
| Uploads.UploadKeepsSync | js/upload.js:105-147 | an upload keeps storage mirroring the list |
| Uploads.UploadAllSucceed | js/upload.js:118-133 | when every transfer succeeds and every name hashes, the records are appended in file order |
| Uploads.UploadAppendsAdded | js/upload.js:118-133 | an upload appends exactly the records of the files whose transfer succeeds and whose name hashes, in file order |
| Uploads.FailedTransferAddsNothing | js/upload.js:131-133 | a failed transfer adds nothing and the upload continues with the next file from the same state |
| Uploads.AllFailedAddsNothing | js/upload.js:118-133 | a batch whose every transfer fails leaves the list and its storage unchanged |
| Uploads.FindById | js/upload.js:320 | the index found is the first with the id, or there is none |
| Uploads.DeleteImage | js/upload.js:317-337 | a declined confirmation or an unknown id changes nothing; otherwise only the first record with the id is removed, the rest keep their order, and storage mirrors the list |
| Uploads.DeleteRemovesOne | js/upload.js:320-327 | deleting a known id removes exactly one record, the first with that id |
| Uploads.DeleteUndoesAdd | js/upload.js:167-179 | deleting a record just added under a fresh id gives the list back |
| Uploads.LoadExistingImages | js/upload.js:359-374 | with any non-empty text stored, parsable or not, the list is emptied; with nothing stored it is kept; storage is not touched |
| Uploads.LoadLeavesStaleMetadata | js/upload.js:359-374 | after loading over stored metadata, storage describes images the list no longer has |
| Uploads.ClearUploadSession | js/upload.js:377-388 | the list is empty and the storage key absent |
| Uploads.DeleteAllImages | js/upload.js:417-424 | a declined confirmation changes nothing; otherwise the session is cleared |
| Uploads.ClearThenLoad | js/upload.js:359-388 | after clearing, loading changes nothing |
| UploadPage.ShowInterface | js/auth.js:155-177 | showing the interface loads the stored list |
| UploadPage.Open | js/auth.js:20-26 | on page load the interface shows exactly when the session check passes |
| UploadPage.Login | js/auth.js:69-113 | a granted login stores the record and shows the interface; a refused one changes nothing |
| UploadPage.Logout | js/auth.js:180-208 | after logout the interface is hidden, the upload list empty, its storage key absent and every session check fails |
| UploadPage.PeriodicCheck | js/auth.js:242-246 | a failed check while the interface shows logs out; otherwise only the check's own removal happens |
| UploadPage.ActivityTick | js/auth.js:226-234 | the activity timer only extends or removes the session |
| UploadPage.VisibilityChange | js/auth.js:249-253 | a hidden page does nothing; a visible one acts like the activity timer |
| UploadPage.StepsKeepConsistent | js/auth.js:20-26 | load, login, logout and the periodic check never show the interface without a stored record |
| UploadPage.ActivityLeavesInterfaceUp | js/auth.js:229-233 | the activity timer can remove an expired record while the interface stays up, until the periodic check logs out |
| UploadPage.ExpiryClearsUploads | js/auth.js:242-246 | the periodic check finding the session expired clears the upload list and its storage |
| UploadPage.ActivityThenCheck | js/auth.js:229-246 | a session kept alive by activity survives the periodic check for 24 hours |

## Behaviour of note

- A saved title or category wins only when it is a non-empty string; saved tags win whenever present, even as an empty list (`Gallery.Merge`).
- The editor's tag parsing rejects nothing: it keeps duplicates and has no length limit (`GalleryEditor.ParseTagsKeepsDuplicates`).
- The once-a-minute check logs out only while the upload interface is showing (`UploadPage.PeriodicCheck`). The activity timer can remove an expired record while the interface stays up (`UploadPage.ActivityLeavesInterfaceUp`).
- Loading the upload list empties it only when non-empty text is stored under `portfolioImages`, parsable or not (`Uploads.LoadExistingImages`).
- A saved `gallery-metadata` of `null` hides every image, and one that does not parse stops the gallery from being built (`Gallery.StartGallery`).

## Left out

- Rendering, templating, `escapeHtml`, icons, modals, progress bars and messages on screen: they show state and do not change it. Which messages appear is kept only where it is a result (`handleFiles`, `validateImage`, the failed-login reasons).
- `js/main.js` (navigation, scrolling, lazy loading, throttling): DOM- and timer-driven, with no rule of its own.
- The `HEAD` request and the `Image` load in `loadImagesFromRepository` and `loadImageWithMetadata`: the list of found images and whether each loaded are inputs (`Detected`, `LoadOutcome`); width and height are dropped.
- `formatDateTitle` and `toLocaleDateString`: locale-dependent; `Gallery.DetectImage` takes the formatter as a parameter.
- `simulateFileUpload` (`Math.random`, timers): its outcome is the `Transfer` parameter of `Uploads.UploadFiles`, with the object URL and the upload date.
- The five-minute activity timer, the one-minute polling interval and the `visibilitychange` event: timers and events; the model has the steps they trigger (`UploadPage.ActivityTick`, `UploadPage.PeriodicCheck`, `UploadPage.VisibilityChange`) with the clock reading as a parameter.
- `formatFileSize`: floating point and `Math.log`, display only.
- `FileReader`, `URL.createObjectURL`/`revokeObjectURL`: the data URL and object URL are parameters; freeing URLs has no visible effect on the model.
- JSON encoding and decoding: storage slots hold values directly; a missing key and the empty string are both `Absent`, and other text that does not parse is `Corrupt`. Stored documents with a section or entry of the wrong shape, and a `gallery-metadata` that parses to a number, string or array, are not modelled.
- Storage write failures (quota errors): every write succeeds, so the `false` result of `saveSiteContent` and the failure message of a login whose write fails do not arise.
- `getGithubConfig` and `addImageToGallery(filename)` of the gallery manager: they only build a URL and log it.
- The admin page's own interface toggling (`showAdminInterface`, `loadContentIntoForms`, `loadCurrentImages`, `updateMainSiteContent`): display only; its session rules are the shared `Session` gate.
- Case mapping: `toLowerCase` is modelled for ASCII and Latin-1 letters only; other scripts are left as they are.
- Uploads.UploadFiles: the loop over the files is one step. In the source each file's transfer is awaited, so a delete, a clear or the periodic check's logout can run between two files, and the later files are then appended to the cleared list and stored again. The model promises that earlier records stay untouched only for uploads that nothing interleaves with.
- Text.Split: modelled for a one-character separator, the only kind the editor uses.
- GalleryEditor.SaveImageChanges: the current image is a snapshot taken by `editImage`, where the source keeps a reference to the record; nothing else changes that record between the two calls.
- Session.SessionRecord: a parsable record without a numeric `expiry` (`expiry` is `None`) never expires, as `now > undefined` is false; other non-numeric expiry values are not modelled.
- CaptureDate.Captured: carries no contract; the range check on its values is made by `CaptureDate.InRange`.
- CaptureDate.ExtractDate: a day that passes the range check but does not exist in its month (`20210231`) is not rejected; the source rolls it into the next month and so does the model (`CaptureDate.FebruaryThirtyFirst`). The promise that the date has day 1-31 holds of the captured numbers, and the date returned is a real calendar date.
- FileChecks.IsValidFileSize: stated as a predicate; only the default limit is used by the pages.


=== FILE: base64.dfy ===
/** `btoa`: Base64 encoding (section 4 of RFC 4648, with `=` padding) of a
    string's Latin-1 code units. The site encodes its passwords with it and
    compares encodings, so what matters is that the encoding can be undone:
    `DecodeEncode` proves the decoder inverts it, and `BtoaInjective` follows. */
module Base64 {
  import opened Common

  predicate IsByte(b: int) {
    0 <= b < 256
  }

  predicate AreBytes(bs: seq<int>) {
    forall i :: 0 <= i < |bs| ==> IsByte(bs[i])
  }

  /** The Base64 alphabet: `A-Z`, `a-z`, `0-9`, `+`, `/`. */
  function SextetChar(v: int): (c: char)
    requires 0 <= v < 64
  {
    if v < 26 then ('A' as int + v) as char
    else if v < 52 then ('a' as int + (v - 26)) as char
    else if v < 62 then ('0' as int + (v - 52)) as char
    else if v == 62 then '+'
    else '/'
  }

  function SextetValue(c: char): (r: Option<int>)
    ensures r.Some? ==> 0 <= r.value < 64
  {
    if 'A' <= c <= 'Z' then Some(c as int - 'A' as int)
    else if 'a' <= c <= 'z' then Some(c as int - 'a' as int + 26)
    else if '0' <= c <= '9' then Some(c as int - '0' as int + 52)
    else if c == '+' then Some(62)
    else if c == '/' then Some(63)
    else None
  }

  lemma SextetRoundTrip(v: int)
    requires 0 <= v < 64
    ensures SextetValue(SextetChar(v)) == Some(v)
  {
  }

  /** Characters that can appear in an encoding. */
  predicate IsBase64Char(c: char) {
    SextetValue(c).Some? || c == '='
  }

  /** Three bytes as four characters. */
  function EncodeGroup(b0: int, b1: int, b2: int): (r: string)
    requires IsByte(b0) && IsByte(b1) && IsByte(b2)
    ensures |r| == 4 && forall i :: 0 <= i < 4 ==> SextetValue(r[i]).Some?
  {
    [SextetChar(b0 / 4), SextetChar((b0 % 4) * 16 + b1 / 16),
     SextetChar((b1 % 16) * 4 + b2 / 64), SextetChar(b2 % 64)]
  }

  /** The last one or two bytes, padded with `=` to four characters. */
  function EncodeTail(bs: seq<int>): (r: string)
    requires AreBytes(bs) && 1 <= |bs| <= 2
    ensures |r| == 4 && r[3] == '='
  {
    if |bs| == 1 then
      [SextetChar(bs[0] / 4), SextetChar((bs[0] % 4) * 16), '=', '=']
    else
      [SextetChar(bs[0] / 4), SextetChar((bs[0] % 4) * 16 + bs[1] / 16),
       SextetChar((bs[1] % 16) * 4), '=']
  }

  /** Encoding of a byte sequence, three bytes to four characters. */
  function Encode(bs: seq<int>): (r: string)
    requires AreBytes(bs)
    ensures |r| == 4 * ((|bs| + 2) / 3)
    decreases |bs|
  {
    if |bs| == 0 then ""
    else if |bs| <= 2 then EncodeTail(bs)
    else EncodeGroup(bs[0], bs[1], bs[2]) + Encode(bs[3..])
  }

  /** Four alphabet characters as three bytes. */
  function DecodeGroup(q: string): Option<seq<int>>
    requires |q| == 4
  {
    var a, b, c, d := SextetValue(q[0]), SextetValue(q[1]), SextetValue(q[2]), SextetValue(q[3]);
    if a.None? || b.None? || c.None? || d.None? then None
    else Some([a.value * 4 + b.value / 16, (b.value % 16) * 16 + c.value / 4,
               (c.value % 4) * 64 + d.value])
  }

  /** A final padded quad as one or two bytes. */
  function DecodeTail(q: string): Option<seq<int>>
    requires |q| == 4
  {
    var a, b, c := SextetValue(q[0]), SextetValue(q[1]), SextetValue(q[2]);
    if a.None? || b.None? then None
    else if q[2] == '=' then Some([a.value * 4 + b.value / 16])
    else if c.None? then None
    else Some([a.value * 4 + b.value / 16, (b.value % 16) * 16 + c.value / 4])
  }

  /** Decoding, four characters at a time; a quad ending in `=` ends the input. */
  function Decode(s: string): Option<seq<int>>
    decreases |s|
  {
    if |s| == 0 then Some([])
    else if |s| < 4 then None
    else if |s| == 4 && s[3] == '=' then DecodeTail(s)
    else
      match DecodeGroup(s[..4])
      case None => None
      case Some(head) =>
        match Decode(s[4..])
        case None => None
        case Some(rest) => Some(head + rest)
  }

  /** The bit arithmetic of one group: splitting three bytes into four
      sextets and joining them again gives the bytes back. */
  lemma GroupArithmetic(b0: int, b1: int, b2: int)
    requires IsByte(b0) && IsByte(b1) && IsByte(b2)
    ensures (b0 / 4) * 4 + ((b0 % 4) * 16 + b1 / 16) / 16 == b0
    ensures (((b0 % 4) * 16 + b1 / 16) % 16) * 16 + ((b1 % 16) * 4 + b2 / 64) / 4 == b1
    ensures (((b1 % 16) * 4 + b2 / 64) % 4) * 64 + b2 % 64 == b2
  {
    assert ((b0 % 4) * 16 + b1 / 16) / 16 == b0 % 4;
    assert ((b0 % 4) * 16 + b1 / 16) % 16 == b1 / 16;
    assert ((b1 % 16) * 4 + b2 / 64) / 4 == b1 % 16;
    assert ((b1 % 16) * 4 + b2 / 64) % 4 == b2 / 64;
  }

  lemma GroupRoundTrip(b0: int, b1: int, b2: int)
    requires IsByte(b0) && IsByte(b1) && IsByte(b2)
    ensures DecodeGroup(EncodeGroup(b0, b1, b2)) == Some([b0, b1, b2])
  {
    SextetRoundTrip(b0 / 4);
    SextetRoundTrip((b0 % 4) * 16 + b1 / 16);
    SextetRoundTrip((b1 % 16) * 4 + b2 / 64);
    SextetRoundTrip(b2 % 64);
    GroupArithmetic(b0, b1, b2);
  }

  lemma TailRoundTrip(bs: seq<int>)
    requires AreBytes(bs) && 1 <= |bs| <= 2
    ensures DecodeTail(EncodeTail(bs)) == Some(bs)
  {
    if |bs| == 1 {
      SextetRoundTrip(bs[0] / 4);
      SextetRoundTrip((bs[0] % 4) * 16);
      GroupArithmetic(bs[0], 0, 0);
      assert bs == [bs[0]];
    } else {
      SextetRoundTrip(bs[0] / 4);
      SextetRoundTrip((bs[0] % 4) * 16 + bs[1] / 16);
      SextetRoundTrip((bs[1] % 16) * 4);
      assert ((bs[1] % 16) * 4) / 4 == bs[1] % 16;
      GroupArithmetic(bs[0], bs[1], 0);
      assert bs == [bs[0], bs[1]];
    }
  }

  /** Decoding undoes encoding. */
  lemma {:induction false} DecodeEncode(bs: seq<int>)
    requires AreBytes(bs)
    ensures Decode(Encode(bs)) == Some(bs)
    decreases |bs|
  {
    if 1 <= |bs| <= 2 {
      TailRoundTrip(bs);
    } else if |bs| >= 3 {
      var q, t := EncodeGroup(bs[0], bs[1], bs[2]), Encode(bs[3..]);
      var s := q + t;
      assert s[..4] == q && s[4..] == t;
      assert s[3] != '=';
      GroupRoundTrip(bs[0], bs[1], bs[2]);
      DecodeEncode(bs[3..]);
      assert bs == [bs[0], bs[1], bs[2]] + bs[3..];
    }
  }

  lemma EncodeInjective(a: seq<int>, b: seq<int>)
    requires AreBytes(a) && AreBytes(b)
    requires Encode(a) == Encode(b)
    ensures a == b
  {
    DecodeEncode(a);
    DecodeEncode(b);
  }

  // ---------------------------------------------------------------------------
  // btoa on strings
  // ---------------------------------------------------------------------------

  /** Every code unit fits in one byte, which `btoa` demands. */
  predicate IsLatin1(s: string) {
    forall i :: 0 <= i < |s| ==> s[i] as int < 256
  }

  function CodeUnits(s: string): (r: seq<int>)
    ensures |r| == |s|
    ensures forall i :: 0 <= i < |s| ==> r[i] == s[i] as int
  {
    seq(|s|, i requires 0 <= i < |s| => s[i] as int)
  }

  /** `btoa(s)`; `None` where `btoa` throws InvalidCharacterError. The
      encoding can always be decoded back to the string's code units. */
  function Btoa(s: string): (r: Option<string>)
    ensures r.Some? <==> IsLatin1(s)
    ensures r.Some? ==> Decode(r.value) == Some(CodeUnits(s))
  {
    if IsLatin1(s) then
      DecodeEncode(CodeUnits(s));
      Some(Encode(CodeUnits(s)))
    else
      None
  }

  /** Different strings never share an encoding. */
  lemma BtoaInjective(s: string, t: string)
    requires Btoa(s).Some? && Btoa(s) == Btoa(t)
    ensures s == t
  {
    assert CodeUnits(s) == CodeUnits(t);
    assert forall i :: 0 <= i < |s| ==> s[i] as int == t[i] as int;
  }
}

=== FILE: capture_date.dfy ===
/** The capture date `extractDateFromImage` (js/gallery-manager.js) reads
    from digit patterns in an image's file name. */
module CaptureDate {
  import opened Common
  import opened Text


  /** A calendar date; `month` counts from 1. */
  datatype Date = Date(year: int, month: int, day: int)

  predicate IsLeapYear(y: int) {
    (y % 4 == 0 && y % 100 != 0) || y % 400 == 0
  }

  function DaysInMonth(y: int, m: int): (r: int)
    requires 1 <= m <= 12
    ensures 28 <= r <= 31
  {
    if m == 2 then (if IsLeapYear(y) then 29 else 28)
    else if m == 4 || m == 6 || m == 9 || m == 11 then 30
    else 31
  }

  predicate IsCalendarDate(d: Date) {
    1 <= d.month <= 12 && 1 <= d.day <= DaysInMonth(d.year, d.month)
  }

  /** `new Date(y, m - 1, d)` for `1 <= m <= 12` and `1 <= d <= 31`: a day
      past the end of the month rolls over into the next month, so the result
      is always a real calendar date in the same year. */
  function JsDate(y: int, m: int, d: int): (r: Date)
    requires 1 <= m <= 12 && 1 <= d <= 31
    ensures IsCalendarDate(r) && r.year == y
    ensures d <= DaysInMonth(y, m) <==> r == Date(y, m, d)
    ensures d > DaysInMonth(y, m) ==> r == Date(y, m + 1, d - DaysInMonth(y, m))
  {
    if d <= DaysInMonth(y, m) then Date(y, m, d)
    else Date(y, m + 1, d - DaysInMonth(y, m))
  }

  /** One of the digit patterns: a literal prefix, then four digits, a
      separator, two digits, the separator again and two digits. */
  datatype DatePattern = DatePattern(prefix: string, sep: string)

  /** The patterns in the order they are tried: `YYYYMMDD`, `YYYY-MM-DD`,
      `YYYY_MM_DD`, `IMG_YYYYMMDD`, `DSCYYYYMMDD`. */
  const DatePatterns: seq<DatePattern> := [
    DatePattern("", ""), DatePattern("", "-"), DatePattern("", "_"),
    DatePattern("IMG_", ""), DatePattern("DSC", "")
  ]

  function PatternLength(p: DatePattern): nat {
    |p.prefix| + 8 + 2 * |p.sep|
  }

  /** Where the year, month and day digits start, relative to the match. */
  function YearAt(p: DatePattern): nat { |p.prefix| }
  function MonthAt(p: DatePattern): nat { |p.prefix| + 4 + |p.sep| }
  function DayAt(p: DatePattern): nat { |p.prefix| + 6 + 2 * |p.sep| }

  predicate MatchesAt(s: string, p: DatePattern, i: int) {
    && 0 <= i && i + PatternLength(p) <= |s|
    && s[i..i + |p.prefix|] == p.prefix
    && AllDigits(s[i + YearAt(p)..i + YearAt(p) + 4])
    && s[i + YearAt(p) + 4..i + MonthAt(p)] == p.sep
    && AllDigits(s[i + MonthAt(p)..i + MonthAt(p) + 2])
    && s[i + MonthAt(p) + 2..i + DayAt(p)] == p.sep
    && AllDigits(s[i + DayAt(p)..i + DayAt(p) + 2])
  }

  /** The leftmost match at or after `from`, as `String.prototype.match`
      finds it. */
  function FirstMatch(s: string, p: DatePattern, from: nat): (r: Option<nat>)
    ensures r.Some? ==> from <= r.value && MatchesAt(s, p, r.value)
    ensures r.Some? ==> forall j :: from <= j < r.value ==> !MatchesAt(s, p, j)
    ensures r.None? ==> forall j :: from <= j ==> !MatchesAt(s, p, j)
    decreases |s| - from
  {
    if from + PatternLength(p) > |s| then None
    else if MatchesAt(s, p, from) then Some(from)
    else FirstMatch(s, p, from + 1)
  }

  /** The three captured groups as numbers (`parseInt`). */
  function Captured(s: string, p: DatePattern, i: nat): Date
    requires MatchesAt(s, p, i)
  {
    var y := s[i + YearAt(p)..i + YearAt(p) + 4];
    var m := s[i + MonthAt(p)..i + MonthAt(p) + 2];
    var d := s[i + DayAt(p)..i + DayAt(p) + 2];
    Date(DecimalValue(y), DecimalValue(m), DecimalValue(d))
  }

  /** The range check the source applies to the captured numbers. */
  predicate InRange(d: Date, currentYear: int) {
    1900 <= d.year <= currentYear && 1 <= d.month <= 12 && 1 <= d.day <= 31
  }

  /** Pattern `k`'s first match exists and passes the range check. */
  predicate PatternYields(s: string, k: int, currentYear: int)
    requires 0 <= k < |DatePatterns|
  {
    var m := FirstMatch(s, DatePatterns[k], 0);
    m.Some? && InRange(Captured(s, DatePatterns[k], m.value), currentYear)
  }

  function PatternDate(s: string, k: int, currentYear: int): (r: Date)
    requires 0 <= k < |DatePatterns| && PatternYields(s, k, currentYear)
  {
    var c := Captured(s, DatePatterns[k], FirstMatch(s, DatePatterns[k], 0).value);
    JsDate(c.year, c.month, c.day)
  }

  function TryPatterns(s: string, k: nat, currentYear: int): (r: Option<Date>)
    requires k <= |DatePatterns|
    requires forall j :: 0 <= j < k ==> !PatternYields(s, j, currentYear)
    ensures r.Some? <==> exists j :: k <= j < |DatePatterns| && PatternYields(s, j, currentYear)
    ensures r.Some? ==> exists j :: 0 <= j < |DatePatterns| && PatternYields(s, j, currentYear)
                           && (forall j' :: 0 <= j' < j ==> !PatternYields(s, j', currentYear))
                           && r.value == PatternDate(s, j, currentYear)
    decreases |DatePatterns| - k
  {
    if k == |DatePatterns| then None
    else if PatternYields(s, k, currentYear) then Some(PatternDate(s, k, currentYear))
    else TryPatterns(s, k + 1, currentYear)
  }

  /** `extractDateFromImage(img, filename)` with `new Date().getFullYear()`
      as `currentYear`: the date of the first pattern, in list order, whose
      first match passes the range check. Any date returned is a real
      calendar date between 1900 and the current year. */
  function ExtractDate(filename: string, currentYear: int): (r: Option<Date>)
    ensures r.Some? ==> 1900 <= r.value.year <= currentYear && IsCalendarDate(r.value)
    ensures r.None? <==> forall k :: 0 <= k < |DatePatterns| ==> !PatternYields(filename, k, currentYear)
    ensures r.Some? ==> exists k :: 0 <= k < |DatePatterns| && PatternYields(filename, k, currentYear)
                           && (forall j :: 0 <= j < k ==> !PatternYields(filename, j, currentYear))
                           && r.value == PatternDate(filename, k, currentYear)
  {
    TryPatterns(filename, 0, currentYear)
  }

  /** The prefixed patterns add nothing where the plain one already matched:
      their digits are themselves a `YYYYMMDD` match. */
  lemma PrefixedMatchContainsPlain(s: string, k: int, i: int)
    requires k == 3 || k == 4
    requires MatchesAt(s, DatePatterns[k], i)
    ensures MatchesAt(s, DatePatterns[0], i + |DatePatterns[k].prefix|)
  {
  }

  /** A day past the end of the month is not rejected but rolls over:
      `20210231` reads as 3 March 2021. */
  lemma FebruaryThirtyFirst()
    ensures ExtractDate("20210231.jpg", 2024) == Some(Date(2021, 3, 3))
  {
    var s := "20210231.jpg";
    ExampleCapture();
    assert PatternYields(s, 0, 2024);
    assert PatternDate(s, 0, 2024) == JsDate(2021, 2, 31);
    assert DaysInMonth(2021, 2) == 28;
  }

  /** Worked example behind `FebruaryThirtyFirst`: the first pattern matches
      "20210231.jpg" at its start and captures 2021, 2 and 31. */
  lemma ExampleCapture()
    ensures FirstMatch("20210231.jpg", DatePatterns[0], 0) == Some(0)
    ensures Captured("20210231.jpg", DatePatterns[0], 0) == Date(2021, 2, 31)
  {
    var s := "20210231.jpg";
    assert MatchesAt(s, DatePatterns[0], 0) by {
      assert AllDigits(s[0..4]) && AllDigits(s[4..6]) && AllDigits(s[6..8]);
    }
    assert s[0..4] == "2021" && s[4..6] == "02" && s[6..8] == "31";
    ExampleNumbers();
  }

  /** Worked example behind `ExampleCapture`: the three digit strings of
      "20210231" and their values. */
  lemma ExampleNumbers()
    ensures DecimalValue("2021") == 2021 && DecimalValue("02") == 2 && DecimalValue("31") == 31
  {
    assert DecimalValue("2021") == 2021 by {
      assert "2021"[..3] == "202" && "202"[..2] == "20" && "20"[..1] == "2" && "2"[..0] == "";
    }
    assert DecimalValue("02") == 2 by {
      assert "02"[..1] == "0" && "0"[..0] == "";
    }
    assert DecimalValue("31") == 31 by {
      assert "31"[..1] == "3" && "3"[..0] == "";
    }
  }
}

=== FILE: common.dfy ===
/** Small shared definitions: an optional value, one slot of the browser's
    key/value store, and the first-match search of `find` and `findIndex`. */
module Common {

  /** A value that may be missing (JavaScript `undefined` or `null`). */
  datatype Option<+T> = None | Some(value: T) {
    function GetOr(default: T): T {
      match this
      case Some(v) => v
      case None => default
    }
  }

  /** What one local-storage key holds, as the program sees it. Every reader
      tests the stored text for truthiness before `JSON.parse`, so `Absent`
      is a missing key or the empty string; `Corrupt` is other text that does
      not parse, or that parses to `null` where the reader cannot use it;
      `Stored` is a parsed record. JSON (de)serialisation itself is taken to
      be lossless. */
  datatype Slot<+T> = Absent | Corrupt | Stored(value: T)

  /** The first index whose element satisfies `p`, where `find` and
      `findIndex` stop; `None` when no element does. */
  function FirstIndex<T>(s: seq<T>, p: T -> bool): (r: Option<nat>)
    ensures r.None? <==> forall i :: 0 <= i < |s| ==> !p(s[i])
    ensures r.Some? ==> r.value < |s| && p(s[r.value])
    ensures r.Some? ==> forall i :: 0 <= i < r.value ==> !p(s[i])
    decreases |s|
  {
    if |s| == 0 then None
    else if p(s[0]) then Some(0)
    else
      match FirstIndex(s[1..], p)
      case None => None
      case Some(i) => Some(i + 1)
  }
}

=== FILE: file_checks.dfy ===
/** The file checks of `SecurityUtils` (js/auth.js): the accepted image
    types, the size limit, and the identifier an uploaded file gets. */
module FileChecks {
  import opened Common
  import opened Text
  import Base64

  /** What the page reads from a browser `File`. */
  datatype File = File(name: string, size: int, mimeType: string, lastModified: int)

  const ValidImageTypes: seq<string> := ["image/jpeg", "image/jpg", "image/png", "image/webp", "image/gif"]

  /** `isValidImageType(file)`: the type is exactly one of the five listed
      strings (no case folding, no parameters). */
  function IsValidImageType(f: File): (r: bool)
    ensures r <==> || f.mimeType == "image/jpeg" || f.mimeType == "image/jpg"
                   || f.mimeType == "image/png" || f.mimeType == "image/webp"
                   || f.mimeType == "image/gif"
  {
    f.mimeType in ValidImageTypes
  }

  /** 10 MiB, the default limit of `isValidFileSize`. */
  const DefaultMaxSize: int := 10 * 1024 * 1024

  /** `isValidFileSize(file, maxSize)`: the limit itself is allowed. */
  predicate IsValidFileSize(f: File, maxSize: int) {
    f.size <= maxSize
  }

  lemma DefaultSizeBoundary(f: File)
    ensures f.size == 10485760 ==> IsValidFileSize(f, DefaultMaxSize)
    ensures f.size == 10485761 ==> !IsValidFileSize(f, DefaultMaxSize)
  {
  }

  /** `.replace(/[^a-zA-Z0-9]/g, '')`: keeps the ASCII letters and digits,
      in order. */
  function KeepAlphanumeric(s: string): (r: string)
    ensures |r| <= |s|
    ensures forall i :: 0 <= i < |r| ==> IsAsciiAlphanumeric(r[i])
    ensures forall i :: 0 <= i < |s| && IsAsciiAlphanumeric(s[i]) ==> s[i] in r
    decreases |s|
  {
    if |s| == 0 then ""
    else
      var rest := KeepAlphanumeric(s[1..]);
      assert forall i :: 0 < i < |s| ==> s[i] == s[1..][i - 1];
      if IsAsciiAlphanumeric(s[0]) then [s[0]] + rest else rest
  }

  /** Removing nothing from a string of letters and digits. */
  lemma {:induction false} KeepAlphanumericOfAlphanumeric(s: string)
    requires forall i :: 0 <= i < |s| ==> IsAsciiAlphanumeric(s[i])
    ensures KeepAlphanumeric(s) == s
    decreases |s|
  {
    if |s| > 0 {
      KeepAlphanumericOfAlphanumeric(s[1..]);
      assert [s[0]] + s[1..] == s;
    }
  }

  /** One character: kept exactly when it is an ASCII letter or digit. */
  lemma KeepAlphanumericOne(c: char)
    ensures IsAsciiAlphanumeric(c) ==> KeepAlphanumeric([c]) == [c]
    ensures !IsAsciiAlphanumeric(c) ==> KeepAlphanumeric([c]) == ""
  {
  }

  /** The filter works character by character and keeps order and
      repetitions: a string filters like its two halves concatenated. */
  lemma {:induction false} KeepAlphanumericAppend(a: string, b: string)
    ensures KeepAlphanumeric(a + b) == KeepAlphanumeric(a) + KeepAlphanumeric(b)
    decreases |a|
  {
    if |a| == 0 {
      assert a + b == b;
    } else {
      assert (a + b)[0] == a[0];
      assert (a + b)[1..] == a[1..] + b;
      KeepAlphanumericAppend(a[1..], b);
      if IsAsciiAlphanumeric(a[0]) {
        var x, y := KeepAlphanumeric(a[1..]), KeepAlphanumeric(b);
        assert [a[0]] + (x + y) == ([a[0]] + x) + y;
      }
    }
  }

  /** `file.name + file.size + file.lastModified`: the numbers are written
      in decimal and run together with the name. */
  function HashInput(f: File): string {
    f.name + IntToString(f.size) + IntToString(f.lastModified)
  }

  /** Digits and a minus sign are Latin-1, so only the name can make `btoa`
      throw. */
  lemma HashInputLatin1(f: File)
    ensures Base64.IsLatin1(HashInput(f)) <==> Base64.IsLatin1(f.name)
  {
    var s := HashInput(f);
    var a, b := IntToString(f.size), IntToString(f.lastModified);
    assert s == f.name + (a + b);
    assert Base64.IsLatin1(a + b) by {
      IntToStringIsAscii(f.size);
      IntToStringIsAscii(f.lastModified);
    }
    if Base64.IsLatin1(f.name) {
      forall i | 0 <= i < |s|
        ensures s[i] as int < 256
      {
        if i >= |f.name| {
          assert s[i] == (a + b)[i - |f.name|];
        }
      }
    } else {
      var i :| 0 <= i < |f.name| && f.name[i] as int >= 256;
      assert s[i] == f.name[i];
    }
  }

  lemma IntToStringIsAscii(n: int)
    ensures Base64.IsLatin1(IntToString(n))
  {
    var d := NatToString(if n < 0 then -n else n);
    assert forall i :: 0 <= i < |d| ==> d[i] as int < 256;
    if n < 0 {
      assert IntToString(n) == "-" + d;
      assert forall i :: 1 <= i < |"-" + d| ==> ("-" + d)[i] == d[i - 1];
    }
  }

  /** `generateFileHash(file)`: `None` where `btoa` throws (a name with a
      character above U+00FF); otherwise the Base64 text with `+`, `/` and
      `=` dropped, so only ASCII letters and digits remain. */
  function FileHash(f: File): (r: Option<string>)
    ensures r.Some? <==> Base64.IsLatin1(f.name)
    ensures r.Some? ==> forall i :: 0 <= i < |r.value| ==> IsAsciiAlphanumeric(r.value[i])
    ensures r.Some? ==> |r.value| <= |Base64.Btoa(HashInput(f)).value|
  {
    HashInputLatin1(f);
    match Base64.Btoa(HashInput(f))
    case None => None
    case Some(encoded) => Some(KeepAlphanumeric(encoded))
  }

  /** Files whose name and numbers run together the same way share a hash. */
  lemma HashSeesOnlyTheConcatenation(f: File, g: File)
    requires HashInput(f) == HashInput(g)
    ensures FileHash(f) == FileHash(g)
  {
  }

  /** Two different files with the same identifier: "a1" of 23 bytes and
      "a12" of 3 bytes, modified at the same instant. */
  lemma HashCollision(t: nat)
    ensures File("a1", 23, "image/png", t) != File("a12", 3, "image/png", t)
    ensures FileHash(File("a1", 23, "image/png", t)) == FileHash(File("a12", 3, "image/png", t))
  {
    assert IntToString(23) == "23" by {
      assert NatToString(2) == "2" && NatToString(3) == "3";
    }
    assert IntToString(3) == "3";
    assert "a1" + "23" == "a12" + "3";
    HashSeesOnlyTheConcatenation(File("a1", 23, "image/png", t), File("a12", 3, "image/png", t));
  }
}

=== FILE: filename_rules.dfy ===
/** What the gallery derives from an image's file name alone
    (js/gallery-manager.js): the name without its extension and a display
    title. The regular expressions of the source are written out as string
    functions. */
module FilenameRules {
  import opened Common
  import opened Text

  // ---------------------------------------------------------------------------
  // Extension: `.replace(/\.[^/.]+$/, '')`
  // ---------------------------------------------------------------------------

  /** `\.[^/.]+$` matches from index `k`: a dot, then at least one character,
      none of them a dot or a slash, up to the end. */
  predicate IsExtensionAt(s: string, k: int) {
    && 0 <= k < |s| - 1 && s[k] == '.'
    && forall j :: k < j < |s| ==> s[j] != '.' && s[j] != '/'
  }

  /** Scans leftwards from index `i`; everything from `i` on is known to be
      neither a dot nor a slash. */
  function FindExtension(s: string, i: nat): (r: Option<nat>)
    requires i <= |s|
    requires forall j :: i <= j < |s| ==> s[j] != '.' && s[j] != '/'
    ensures r.Some? ==> IsExtensionAt(s, r.value)
    ensures r.None? ==> forall k :: !IsExtensionAt(s, k)
    decreases i
  {
    if i == 0 then None
    else if s[i - 1] == '/' then None
    else if s[i - 1] == '.' then (if i - 1 < |s| - 1 then Some(i - 1) else None)
    else FindExtension(s, i - 1)
  }

  /** The file name without its final extension; a name with no extension
      (or ending in a dot, or with a slash after the last dot) is kept. */
  function StripExtension(s: string): (r: string)
    ensures (exists k :: IsExtensionAt(s, k) && r == s[..k])
            || ((forall k :: !IsExtensionAt(s, k)) && r == s)
  {
    match FindExtension(s, |s|)
    case Some(k) => s[..k]
    case None => s
  }

  /** At most one position can start the extension. */
  lemma ExtensionUnique(s: string, k: int, k': int)
    requires IsExtensionAt(s, k) && IsExtensionAt(s, k')
    ensures k == k'
  {
  }

  // ---------------------------------------------------------------------------
  // Title: `generateTitleFromFilename`
  // ---------------------------------------------------------------------------

  /** `\w`: ASCII letters, digits and the underscore. */
  predicate IsWordChar(c: char) {
    IsAsciiAlphanumeric(c) || c == '_'
  }

  function AsciiUpper(c: char): (r: char)
    ensures !('a' <= r <= 'z')
  {
    if 'a' <= c <= 'z' then (c as int - 32) as char else c
  }

  /** `\b\w` matches at `i`: a word character with no word character just
      before it. */
  predicate IsWordStart(s: string, i: int)
    requires 0 <= i < |s|
  {
    IsWordChar(s[i]) && (i == 0 || !IsWordChar(s[i - 1]))
  }

  /** `.replace(/[-_]/g, ' ')` */
  function DashesToSpaces(s: string): (r: string)
    ensures |r| == |s|
    ensures forall i :: 0 <= i < |s| ==> r[i] == (if s[i] == '-' || s[i] == '_' then ' ' else s[i])
  {
    seq(|s|, i requires 0 <= i < |s| => if s[i] == '-' || s[i] == '_' then ' ' else s[i])
  }

  /** The extension dropped, dashes and underscores turned into spaces, and
      the first character of every word upper-cased; nothing else changes. */
  function TitleFromFilename(filename: string): (r: string)
    ensures var spaced := DashesToSpaces(StripExtension(filename));
            && |r| == |spaced|
            && (forall i :: 0 <= i < |r| ==> r[i] != '-' && r[i] != '_')
            && (forall i :: 0 <= i < |r| && IsWordStart(spaced, i) ==> !('a' <= r[i] <= 'z'))
            && (forall i :: 0 <= i < |r| && !IsWordStart(spaced, i) ==> r[i] == spaced[i])
  {
    var spaced := DashesToSpaces(StripExtension(filename));
    seq(|spaced|, i requires 0 <= i < |spaced| =>
      if IsWordStart(spaced, i) then AsciiUpper(spaced[i]) else spaced[i])
  }

  /** The title differs from the spaced name only in letter case. */
  lemma TitleOnlyChangesCase(filename: string)
    ensures Lower(TitleFromFilename(filename)) == Lower(DashesToSpaces(StripExtension(filename)))
  {
  }

  /** `generateAltFromFilename`: the spaced name without its extension, with
      word starts upper-cased, then the word "photograph". */
  function AltFromFilename(filename: string): (r: string)
    ensures |r| == |StripExtension(filename)| + |" photograph"|
    ensures r[|r| - |" photograph"|..] == " photograph"
    ensures Lower(r[..|r| - |" photograph"|]) == Lower(DashesToSpaces(StripExtension(filename)))
    ensures var spaced := DashesToSpaces(StripExtension(filename));
            && (forall i :: 0 <= i < |spaced| && IsWordStart(spaced, i) ==> !('a' <= r[i] <= 'z'))
            && (forall i :: 0 <= i < |spaced| && !IsWordStart(spaced, i) ==> r[i] == spaced[i])
  {
    var title := TitleFromFilename(filename);
    TitleOnlyChangesCase(filename);
    assert (title + " photograph")[..|title|] == title;
    title + " photograph"
  }

}

=== FILE: gallery.dfy ===
/** The gallery's image records (js/gallery-manager.js): what loading an
    image yields, the merge of the saved per-file overlay onto those
    defaults, saving the overlay back, and editing one record. The network
    probe and image loading are inputs: the model starts from the list of
    detected images. */
module Gallery {
  import opened Common
  import opened Text
  import CaptureDate
  import Keywords

  /** What `loadImageWithMetadata` resolves to (width and height left out). */
  datatype Detected = Detected(
    filename: string,
    url: string,
    alt: string,
    title: string,
    captureDate: Option<CaptureDate.Date>,
    defaultTags: seq<string>)

  /** Whether the browser fired `onload` or `onerror` for the image. */
  datatype LoadOutcome = Loaded | LoadFailed

  function NumberTitle(n: nat): string {
    "Image Number: " + NatToString(n)
  }

  /** `loadImageWithMetadata(url, filename, n)`: a loaded image is titled by
      its capture date (formatted by `formatDate`, the locale's
      `toLocaleDateString`) or by its number, and tagged from its file name;
      a failed one gets its number as title, no date, and `['photography']`.
      Either way the alt text is the title followed by " photograph". */
  function DetectImage(url: string, filename: string, n: nat, outcome: LoadOutcome,
                       currentYear: int, formatDate: CaptureDate.Date -> string): (r: Detected)
    ensures r.filename == filename && r.url == url
    ensures r.alt == r.title + " photograph"
    ensures |r.defaultTags| >= 1 && Keywords.AllClean(r.defaultTags)
    ensures outcome == LoadFailed ==> r.captureDate.None? && r.title == NumberTitle(n)
    ensures outcome == Loaded ==> r.captureDate == CaptureDate.ExtractDate(filename, currentYear)
    ensures r.captureDate.None? ==> r.title == NumberTitle(n)
    ensures r.captureDate.Some? ==> r.title == formatDate(r.captureDate.value)
  {
    match outcome
    case Loaded =>
      var date := CaptureDate.ExtractDate(filename, currentYear);
      var title := if date.Some? then formatDate(date.value) else NumberTitle(n);
      Keywords.DefaultTagsAreClean(filename);
      Detected(filename, url, title + " photograph", title, date, Keywords.TagsFromFilename(filename))
    case LoadFailed =>
      var title := NumberTitle(n);
      assert Keywords.AllClean(Keywords.DefaultTags) by {
        Keywords.AsciiWordIsClean("photography");
      }
      Detected(filename, url, title + " photograph", title, None, Keywords.DefaultTags)
  }

  /** An image as the gallery keeps it. `tags` is `None` where the record
      has no tag list (`img.tags` undefined or null). */
  datatype Image = Image(
    id: string,
    filename: string,
    url: string,
    alt: string,
    title: string,
    tags: Option<seq<string>>,
    category: string,
    captureDate: Option<CaptureDate.Date>)

  /** One file's saved metadata; a field is `None` when it is missing. */
  datatype MetaEntry = MetaEntry(title: Option<string>, tags: Option<seq<string>>,
                                 category: Option<string>)

  /** The `gallery-metadata` overlay, keyed by file name. */
  type Overlay = map<string, MetaEntry>

  const NoEntry: MetaEntry := MetaEntry(None, None, None)

  /** `overlay[filename] || {}` */
  function EntryFor(overlay: Overlay, filename: string): MetaEntry {
    if filename in overlay then overlay[filename] else NoEntry
  }

  /** A JavaScript-truthy string: present and non-empty. */
  predicate HasText(s: Option<string>) {
    s.Some? && s.value != ""
  }

  /** `img.defaultTags[0] || 'photography'` */
  function FallbackCategory(defaultTags: seq<string>): (r: string)
    ensures r != ""
  {
    if |defaultTags| > 0 && defaultTags[0] != "" then defaultTags[0] else "photography"
  }

  /** The load-time merge: saved title and category win only when non-empty,
      saved tags win whenever present (an empty list included), the category
      otherwise falls back to the first default tag, and the id is the file
      name. */
  function Merge(d: Detected, overlay: Overlay): (r: Image)
    ensures r.id == d.filename && r.filename == d.filename
    ensures r.url == d.url && r.alt == d.alt && r.captureDate == d.captureDate
    ensures var m := EntryFor(overlay, d.filename);
            && (HasText(m.title) ==> r.title == m.title.value)
            && (!HasText(m.title) ==> r.title == d.title)
            && (m.tags.Some? ==> r.tags == m.tags)
            && (m.tags.None? ==> r.tags == Some(d.defaultTags))
            && (HasText(m.category) ==> r.category == m.category.value)
            && (!HasText(m.category) ==> r.category == FallbackCategory(d.defaultTags))
    ensures r.tags.Some? && r.category != ""
  {
    var m := EntryFor(overlay, d.filename);
    Image(
      d.filename, d.filename, d.url, d.alt,
      if HasText(m.title) then m.title.value else d.title,
      if m.tags.Some? then m.tags else Some(d.defaultTags),
      if HasText(m.category) then m.category.value else FallbackCategory(d.defaultTags),
      d.captureDate)
  }

  /** `loadImagesFromRepository`'s final mapping over the detected images. */
  function LoadImages(ds: seq<Detected>, overlay: Overlay): (r: seq<Image>)
    ensures |r| == |ds|
    ensures forall i :: 0 <= i < |ds| ==> r[i] == Merge(ds[i], overlay)
  {
    seq(|ds|, i requires 0 <= i < |ds| => Merge(ds[i], overlay))
  }

  /** With nothing saved for a file, its record is built from the defaults
      alone. */
  lemma MergeWithoutEntry(d: Detected, overlay: Overlay)
    requires d.filename !in overlay
    ensures Merge(d, overlay).title == d.title
    ensures Merge(d, overlay).tags == Some(d.defaultTags)
    ensures Merge(d, overlay).category == FallbackCategory(d.defaultTags)
  {
  }

  // ---------------------------------------------------------------------------
  // Saving the overlay
  // ---------------------------------------------------------------------------

  /** What `saveMetadata` stores for one image. */
  function EntryOf(img: Image): MetaEntry {
    MetaEntry(Some(img.title), img.tags, Some(img.category))
  }

  function Filenames(images: seq<Image>): set<string> {
    set i | 0 <= i < |images| :: images[i].filename
  }

  /** `images[i]` is the last image with its file name. */
  predicate IsLastWithName(images: seq<Image>, i: int)
    requires 0 <= i < |images|
  {
    forall j :: i < j < |images| ==> images[j].filename != images[i].filename
  }

  lemma FilenamesSnoc(images: seq<Image>)
    requires |images| > 0
    ensures Filenames(images) == Filenames(images[..|images| - 1]) + {images[|images| - 1].filename}
  {
    var init := images[..|images| - 1];
    forall f | f in Filenames(images)
      ensures f in Filenames(init) + {images[|images| - 1].filename}
    {
      var i :| 0 <= i < |images| && images[i].filename == f;
      if i < |images| - 1 {
        assert init[i].filename == f;
      }
    }
    forall f | f in Filenames(init)
      ensures f in Filenames(images)
    {
      var i :| 0 <= i < |init| && init[i].filename == f;
      assert images[i].filename == f;
    }
  }

  /** `saveMetadata`: one entry per file name, written in list order, so a
      later image with the same file name overwrites an earlier one
      (`SavedEntryIsLast`). */
  function SaveMetadata(images: seq<Image>): (r: Overlay)
    ensures r.Keys == Filenames(images)
    decreases |images|
  {
    if |images| == 0 then map[]
    else
      FilenamesSnoc(images);
      var last := images[|images| - 1];
      SaveMetadata(images[..|images| - 1])[last.filename := EntryOf(last)]
  }

  /** The entry saved for a file name is that of the last image with it. */
  lemma {:induction false} SavedEntryIsLast(images: seq<Image>, i: int)
    requires 0 <= i < |images| && IsLastWithName(images, i)
    ensures SaveMetadata(images)[images[i].filename] == EntryOf(images[i])
    decreases |images|
  {
    if i < |images| - 1 {
      var init := images[..|images| - 1];
      assert IsLastWithName(init, i);
      SavedEntryIsLast(init, i);
    }
  }

  /** File names occur at most once. */
  predicate DistinctNames(ds: seq<Detected>) {
    forall i, j :: 0 <= i < j < |ds| ==> ds[i].filename != ds[j].filename
  }

  /** Saving the merged records and loading again gives the same records:
      the overlay is a fixed point of load-then-save. */
  lemma ReloadIsStable(ds: seq<Detected>, overlay: Overlay)
    requires DistinctNames(ds)
    ensures LoadImages(ds, SaveMetadata(LoadImages(ds, overlay))) == LoadImages(ds, overlay)
  {
    var images := LoadImages(ds, overlay);
    var saved := SaveMetadata(images);
    forall i | 0 <= i < |ds|
      ensures Merge(ds[i], saved) == images[i]
    {
      assert IsLastWithName(images, i);
      SavedEntryIsLast(images, i);
      assert EntryFor(saved, ds[i].filename) == EntryOf(images[i]);
    }
  }

  // ---------------------------------------------------------------------------
  // Looking up and editing one record
  // ---------------------------------------------------------------------------

  /** The index `Array.prototype.find` stops at. */
  function FindIndex(images: seq<Image>, filename: string): (r: Option<nat>)
    ensures r.Some? ==> r.value < |images| && images[r.value].filename == filename
    ensures r.Some? ==> forall j :: 0 <= j < r.value ==> images[j].filename != filename
    ensures r.None? ==> forall j :: 0 <= j < |images| ==> images[j].filename != filename
  {
    FirstIndex(images, (img: Image) => img.filename == filename)
  }

  /** `getImageByFilename`: the first image with that file name. */
  function GetImageByFilename(images: seq<Image>, filename: string): (r: Option<Image>)
    ensures r.None? <==> filename !in Filenames(images)
    ensures r.Some? ==> r.value.filename == filename
    ensures r.Some? ==> exists i :: 0 <= i < |images| && images[i] == r.value
                                    && forall j :: 0 <= j < i ==> images[j].filename != filename
  {
    match FindIndex(images, filename)
    case None => None
    case Some(i) => Some(images[i])
  }

  /** The fields an edit may carry; `None` leaves a field as it is. */
  datatype Update = Update(title: Option<string>, tags: Option<seq<string>>, category: Option<string>)

  /** `Object.assign(image, updates)` */
  function Apply(img: Image, u: Update): (r: Image)
    ensures r.id == img.id && r.filename == img.filename && r.url == img.url
    ensures r.alt == img.alt && r.captureDate == img.captureDate
    ensures r.title == u.title.GetOr(img.title)
    ensures r.category == u.category.GetOr(img.category)
    ensures u.tags.Some? ==> r.tags == u.tags
    ensures u.tags.None? ==> r.tags == img.tags
  {
    img.(title := u.title.GetOr(img.title),
         tags := if u.tags.Some? then u.tags else img.tags,
         category := u.category.GetOr(img.category))
  }

  lemma ApplyIdempotent(img: Image, u: Update)
    ensures Apply(Apply(img, u), u) == Apply(img, u)
  {
  }

  /** The gallery's in-memory list and its `imageMetadata` overlay. */
  datatype GalleryState = GalleryState(images: seq<Image>, overlay: Overlay)

  /** What the stored `gallery-metadata` text parses to: `null`, or an object
      whose entries form the overlay. */
  datatype MetaDoc = NullDoc | Entries(overlay: Overlay)

  /** The constructor followed by `loadImagesFromRepository`, given the
      detected images. `Absent` also stands for a stored empty string, which
      `|| '{}'` turns into the empty object.
      - Text that does not parse makes `JSON.parse` throw in the constructor:
        there is no gallery at all.
      - A stored `null` makes the per-image lookup throw before `this.images`
        is assigned, so no image loads (with nothing detected nothing is
        looked up). The `null` overlay is kept as the empty map: it is never
        read again, since only an update of a listed image saves.
      - Otherwise every detected image is merged with the saved overlay. */
  function StartGallery(slot: Slot<MetaDoc>, ds: seq<Detected>): (r: Option<GalleryState>)
    ensures r.None? <==> slot.Corrupt?
    ensures slot == Stored(NullDoc) ==> r.value.images == []
    ensures r.Some? && slot != Stored(NullDoc) ==>
              && |r.value.images| == |ds|
              && r.value.images == LoadImages(ds, r.value.overlay)
              && (slot.Absent? ==> r.value.overlay == map[])
              && (slot.Stored? ==> r.value.overlay == slot.value.overlay)
  {
    match slot
    case Corrupt => None
    case Absent => Some(GalleryState(LoadImages(ds, map[]), map[]))
    case Stored(NullDoc) => Some(GalleryState([], map[]))
    case Stored(Entries(overlay)) => Some(GalleryState(LoadImages(ds, overlay), overlay))
  }

  /** With nothing saved, every record comes from what detection derived. */
  lemma NothingSavedGivesDefaults(ds: seq<Detected>, i: int)
    requires 0 <= i < |ds|
    ensures var img := StartGallery(Absent, ds).value.images[i];
            img.title == ds[i].title && img.tags == Some(ds[i].defaultTags)
            && img.category == FallbackCategory(ds[i].defaultTags)
  {
    MergeWithoutEntry(ds[i], map[]);
  }

  /** A stored `null` hides every detected image, where nothing stored at all
      shows them. */
  lemma NullMetadataHidesImages(ds: seq<Detected>)
    requires |ds| > 0
    ensures StartGallery(Stored(NullDoc), ds).value.images == []
    ensures |StartGallery(Absent, ds).value.images| == |ds|
  {
  }

  /** Saving a started gallery and starting again from what was saved gives
      the same records, for file names that occur once. */
  lemma RestartIsStable(slot: Slot<MetaDoc>, ds: seq<Detected>)
    requires DistinctNames(ds)
    requires slot.Absent? || (slot.Stored? && slot.value.Entries?)
    ensures var g := StartGallery(slot, ds).value;
            StartGallery(Stored(Entries(SaveMetadata(g.images))), ds).value.images == g.images
  {
    var g := StartGallery(slot, ds).value;
    ReloadIsStable(ds, g.overlay);
  }

  /** `updateImageMetadata`: the first image with the file name gets the
      update and the overlay is saved from the new list; an unknown file name
      changes nothing. */
  function UpdateImageMetadata(g: GalleryState, filename: string, u: Update): (r: GalleryState)
    ensures filename !in Filenames(g.images) ==> r == g
    ensures filename in Filenames(g.images) ==>
              && |r.images| == |g.images|
              && r.overlay == SaveMetadata(r.images)
              && r.overlay.Keys == Filenames(g.images)
              && exists i :: 0 <= i < |g.images| && g.images[i].filename == filename
                   && (forall j :: 0 <= j < i ==> g.images[j].filename != filename)
                   && r.images[i] == Apply(g.images[i], u)
                   && (forall j :: 0 <= j < |g.images| && j != i ==> r.images[j] == g.images[j])
  {
    match FindIndex(g.images, filename)
    case None => g
    case Some(i) =>
      var images := g.images[i := Apply(g.images[i], u)];
      assert Filenames(images) == Filenames(g.images) by {
        forall f | f in Filenames(g.images)
          ensures f in Filenames(images)
        {
          var k :| 0 <= k < |g.images| && g.images[k].filename == f;
          assert images[k].filename == f;
        }
        forall f | f in Filenames(images)
          ensures f in Filenames(g.images)
        {
          var k :| 0 <= k < |images| && images[k].filename == f;
          assert g.images[k].filename == f;
        }
      }
      GalleryState(images, SaveMetadata(images))
  }

  /** The updated list is the old one with the found record replaced. */
  lemma UpdateReplacesFound(g: GalleryState, filename: string, u: Update)
    requires filename in Filenames(g.images)
    ensures FindIndex(g.images, filename).Some?
    ensures var i := FindIndex(g.images, filename).value;
            UpdateImageMetadata(g, filename, u).images == g.images[i := Apply(g.images[i], u)]
  {
  }

  /** Applying the same update twice is applying it once. */
  lemma UpdateIdempotent(g: GalleryState, filename: string, u: Update)
    ensures UpdateImageMetadata(UpdateImageMetadata(g, filename, u), filename, u)
            == UpdateImageMetadata(g, filename, u)
  {
    var r := UpdateImageMetadata(g, filename, u);
    match FindIndex(g.images, filename)
    case None =>
    case Some(i) =>
      assert FindIndex(r.images, filename) == Some(i) by {
        FindIndexAfterUpdate(g.images, filename, i, Apply(g.images[i], u));
      }
      ApplyIdempotent(g.images[i], u);
      assert r.images[i := Apply(r.images[i], u)] == r.images;
  }

  /** Replacing the found image by one with the same file name keeps it the
      one found. */
  lemma FindIndexAfterUpdate(images: seq<Image>, filename: string, i: nat, img: Image)
    requires FindIndex(images, filename) == Some(i)
    requires img.filename == filename
    ensures FindIndex(images[i := img], filename) == Some(i)
  {
    assert images[i := img][i].filename == filename;
  }

  /** After an update, looking the file up finds the updated record. */
  lemma LookupAfterUpdate(g: GalleryState, filename: string, u: Update)
    requires filename in Filenames(g.images)
    ensures var before := GetImageByFilename(g.images, filename).value;
            GetImageByFilename(UpdateImageMetadata(g, filename, u).images, filename)
              == Some(Apply(before, u))
  {
    var i := FindIndex(g.images, filename).value;
    FindIndexAfterUpdate(g.images, filename, i, Apply(g.images[i], u));
  }
}

=== FILE: gallery_editor.dfy ===
/** The admin page's metadata editor (js/admin-gallery.js): opening an image
    fills a form whose tag field is the tag list joined with ", ", and saving
    reads the form back (blank title keeps the old one, blank category
    becomes "uncategorized", the tag text is split on commas, trimmed,
    lower-cased and emptied of blanks) and updates the gallery. */
module GalleryEditor {
  import opened Common
  import opened Text
  import opened Gallery
  import Keywords

  // ---------------------------------------------------------------------------
  // The tag text
  // ---------------------------------------------------------------------------

  /** `.map(tag => tag.trim().toLowerCase()).filter(tag => tag.length > 0)` */
  function CleanPieces(pieces: seq<string>): (r: seq<string>)
    requires forall k :: 0 <= k < |pieces| ==> ',' !in pieces[k]
    ensures |r| <= |pieces|
    ensures Keywords.AllClean(r)
    decreases |pieces|
  {
    if |pieces| == 0 then []
    else
      var t := Lower(Trim(pieces[0]));
      var rest := CleanPieces(pieces[1..]);
      if t == "" then rest
      else
        CleanPiece(pieces[0]);
        ConsClean(t, rest);
        [t] + rest
  }

  lemma ConsClean(t: string, rest: seq<string>)
    requires Keywords.IsCleanTag(t) && Keywords.AllClean(rest)
    ensures Keywords.AllClean([t] + rest)
  {
    assert forall k :: 0 < k < |[t] + rest| ==> ([t] + rest)[k] == rest[k - 1];
  }

  /** A comma-free piece cleans to a clean tag unless it is blank. */
  lemma CleanPiece(p: string)
    requires ',' !in p && Lower(Trim(p)) != ""
    ensures Keywords.IsCleanTag(Lower(Trim(p)))
  {
    LowerIsLowerCase(Trim(p));
    LowerKeepsTrimmed(Trim(p));
    TrimKeepsOut(p, ',');
    LowerKeepsComma(Trim(p));
  }

  /** Trimming only removes characters. */
  lemma TrimKeepsOut(s: string, c: char)
    requires c !in s
    ensures c !in Trim(s)
  {
  }

  /** Lower-casing never produces a comma. */
  lemma LowerKeepsComma(s: string)
    requires ',' !in s
    ensures ',' !in Lower(s)
  {
  }

  /** The tag field parsed back into a list of clean tags. */
  function ParseTags(text: string): (r: seq<string>)
    ensures Keywords.AllClean(r)
  {
    CleanPieces(Split(text, ','))
  }

  lemma {:induction false} CleanPiecesAppend(a: seq<string>, b: seq<string>)
    requires forall k :: 0 <= k < |a| ==> ',' !in a[k]
    requires forall k :: 0 <= k < |b| ==> ',' !in b[k]
    ensures CleanPieces(a + b) == CleanPieces(a) + CleanPieces(b)
    decreases |a|
  {
    if |a| == 0 {
      assert a + b == b;
    } else {
      assert (a + b)[0] == a[0];
      assert (a + b)[1..] == a[1..] + b;
      CleanPiecesAppend(a[1..], b);
    }
  }

  /** Parsing keeps the order of the entries and keeps duplicates: the text
      on either side of a comma parses on its own. */
  lemma ParseTagsConcat(a: string, b: string)
    ensures ParseTags(a + [','] + b) == ParseTags(a) + ParseTags(b)
  {
    SplitConcat(a, b, ',');
    CleanPiecesAppend(Split(a, ','), Split(b, ','));
  }

  /** `(image.tags || []).join(', ')`, the text the editor shows. */
  function TagText(tags: Option<seq<string>>): string {
    Join(tags.GetOr([]), ", ")
  }

  /** Each entry with a space in front. */
  function Spaced(xs: seq<string>): (r: seq<string>)
    ensures |r| == |xs| && forall k :: 0 <= k < |xs| ==> r[k] == " " + xs[k]
  {
    seq(|xs|, k requires 0 <= k < |xs| => " " + xs[k])
  }

  /** Joining with ", " is joining the spaced entries with ",". */
  lemma {:induction false} JoinSpaced(xs: seq<string>)
    requires |xs| >= 1
    ensures " " + Join(xs, ", ") == Join(Spaced(xs), ",")
    decreases |xs|
  {
    if |xs| > 1 {
      JoinSpaced(xs[1..]);
      assert Spaced(xs)[1..] == Spaced(xs[1..]);
    }
  }

  lemma {:induction false} CleanOfCleanPieces(pieces: seq<string>, tags: seq<string>)
    requires |pieces| == |tags|
    requires forall k :: 0 <= k < |pieces| ==> ',' !in pieces[k]
    requires forall k :: 0 <= k < |tags| ==> tags[k] != "" && Lower(Trim(pieces[k])) == tags[k]
    ensures CleanPieces(pieces) == tags
    decreases |pieces|
  {
    if |pieces| > 0 {
      CleanOfCleanPieces(pieces[1..], tags[1..]);
      assert tags == [tags[0]] + tags[1..];
    }
  }

  /** The pieces `Join(tags, ", ")` splits into at the commas. */
  function TagPieces(tags: seq<string>): (r: seq<string>)
    requires |tags| >= 1
    ensures |r| == |tags| && r[0] == tags[0]
    ensures forall k :: 0 < k < |tags| ==> r[k] == " " + tags[k]
  {
    [tags[0]] + Spaced(tags[1..])
  }

  lemma CommaSpace(a: string, b: string)
    ensures a + ", " + b == a + "," + (" " + b)
  {
    assert ", " == "," + " ";
    calc {
      a + ", " + b;
      (a + ("," + " ")) + b;
      ((a + ",") + " ") + b;
      (a + ",") + (" " + b);
    }
  }

  lemma JoinAsPieces(tags: seq<string>)
    requires |tags| >= 1
    ensures Join(tags, ", ") == Join(TagPieces(tags), ",")
  {
    if |tags| > 1 {
      var pieces := TagPieces(tags);
      var rest := Join(tags[1..], ", ");
      JoinSpaced(tags[1..]);
      assert pieces[1..] == Spaced(tags[1..]);
      assert Join(pieces, ",") == tags[0] + "," + (" " + rest);
      assert Join(tags, ", ") == tags[0] + ", " + rest;
      CommaSpace(tags[0], rest);
    }
  }

  lemma PieceCleansBack(piece: string, tag: string)
    requires Keywords.IsCleanTag(tag)
    requires piece == tag || piece == " " + tag
    ensures ',' !in piece && Lower(Trim(piece)) == tag
  {
    if piece == tag {
      TrimOfTrimmed(tag);
    } else {
      assert piece == [' '] + tag;
      TrimAfterSpace(' ', tag);
    }
    LowerOfLowerCase(tag);
  }

  /** Opening an image and parsing its tag text again gives its tags back,
      as long as each tag is clean (non-empty, lower-case, trimmed, no
      comma). */
  lemma TagTextRoundTrip(tags: seq<string>)
    requires Keywords.AllClean(tags)
    ensures ParseTags(TagText(Some(tags))) == tags
  {
    if |tags| > 0 {
      var pieces := TagPieces(tags);
      JoinAsPieces(tags);
      forall k | 0 <= k < |pieces|
        ensures ',' !in pieces[k] && Lower(Trim(pieces[k])) == tags[k]
      {
        PieceCleansBack(pieces[k], tags[k]);
      }
      SplitJoin(pieces, ',');
      CleanOfCleanPieces(pieces, tags);
    }
  }

  /** Parsing does not remove duplicates. */
  lemma ParseTagsKeepsDuplicates(t: string)
    requires Keywords.IsCleanTag(t)
    ensures ParseTags(t + ", " + t) == [t, t]
  {
    assert Keywords.AllClean([t, t]);
    assert Join([t, t], ", ") == t + ", " + t by {
      assert [t, t][1..] == [t];
    }
    TagTextRoundTrip([t, t]);
  }

  // ---------------------------------------------------------------------------
  // The editor
  // ---------------------------------------------------------------------------

  /** The three form fields. */
  datatype Form = Form(title: string, category: string, tags: string)

  /** `currentImage` and the form. */
  datatype Editor = Editor(current: Option<Image>, form: Form)

  /** `editImage(filename)`: an unknown file name changes nothing; otherwise
      the image becomes current and the form shows its title, category and
      tag text. */
  function EditImage(e: Editor, images: seq<Image>, filename: string): (r: Editor)
    ensures filename !in Filenames(images) ==> r == e
    ensures filename in Filenames(images) ==>
              && r.current == GetImageByFilename(images, filename)
              && r.form == Form(r.current.value.title, r.current.value.category,
                                TagText(r.current.value.tags))
  {
    match GetImageByFilename(images, filename)
    case None => e
    case Some(img) => Editor(Some(img), Form(img.title, img.category, TagText(img.tags)))
  }

  /** The update `saveImageChanges` builds from the form. */
  function FormUpdate(current: Image, form: Form): (u: Update)
    ensures u.title.Some? && u.category.Some? && u.tags.Some?
    ensures Trim(form.title) == "" ==> u.title.value == current.title
    ensures Trim(form.title) != "" ==> u.title.value == Trim(form.title)
    ensures Trim(form.category) == "" ==> u.category.value == "uncategorized"
    ensures Trim(form.category) != "" ==> u.category.value == Trim(form.category)
    ensures u.tags.value == ParseTags(form.tags)
  {
    var title := Trim(form.title);
    var category := Trim(form.category);
    Update(Some(if title != "" then title else current.title),
           Some(ParseTags(form.tags)),
           Some(if category != "" then category else "uncategorized"))
  }

  /** `cancelEdit`: nothing is current any more. */
  function CancelEdit(e: Editor): (r: Editor)
    ensures r.current.None? && r.form == e.form
  {
    e.(current := None)
  }

  /** `saveImageChanges`: with no current image nothing happens; otherwise
      the current image's record is updated from the form and editing ends. */
  function SaveImageChanges(e: Editor, g: GalleryState): (r: (Editor, GalleryState))
    ensures e.current.None? ==> r == (e, g)
    ensures e.current.Some? ==>
              && r.0 == CancelEdit(e)
              && r.1 == UpdateImageMetadata(g, e.current.value.filename, FormUpdate(e.current.value, e.form))
  {
    match e.current
    case None => (e, g)
    case Some(img) =>
      (CancelEdit(e), UpdateImageMetadata(g, img.filename, FormUpdate(img, e.form)))
  }

  /** An image whose fields already look like what the form produces. */
  predicate IsFormShaped(img: Image) {
    && IsTrimmed(img.title)
    && img.category != "" && IsTrimmed(img.category)
    && img.tags.Some? && Keywords.AllClean(img.tags.value)
  }

  /** The form of such an image reads back as an update that changes
      nothing. */
  lemma FormOfShapedImage(img: Image)
    requires IsFormShaped(img)
    ensures Apply(img, FormUpdate(img, Form(img.title, img.category, TagText(img.tags)))) == img
  {
    TagTextRoundTrip(img.tags.value);
    TrimOfTrimmed(img.title);
    TrimOfTrimmed(img.category);
  }

  /** Opening such an image and saving without touching the form leaves every
      record as it was. */
  lemma EditThenSaveKeepsImages(e: Editor, g: GalleryState, filename: string)
    requires filename in Filenames(g.images)
    requires IsFormShaped(GetImageByFilename(g.images, filename).value)
    ensures SaveImageChanges(EditImage(e, g.images, filename), g).1.images == g.images
    ensures SaveImageChanges(EditImage(e, g.images, filename), g).0.current.None?
  {
    var img := GetImageByFilename(g.images, filename).value;
    var u := FormUpdate(img, Form(img.title, img.category, TagText(img.tags)));
    FormOfShapedImage(img);
    var ed := EditImage(e, g.images, filename);
    assert ed == Editor(Some(img), Form(img.title, img.category, TagText(img.tags)));
    assert SaveImageChanges(ed, g).1 == UpdateImageMetadata(g, filename, u);
    UpdateReplacesFound(g, filename, u);
    var i := FindIndex(g.images, filename).value;
    assert img == g.images[i];
    UpdateWithSame(g.images, i);
  }

  lemma UpdateWithSame(s: seq<Image>, i: int)
    requires 0 <= i < |s|
    ensures s[i := s[i]] == s
  {
  }
}

=== FILE: keywords.dfy ===
/** The default tags `generateTagsFromFilename` (js/gallery-manager.js)
    derives from keywords in an image's file name. */
module Keywords {
  import opened Common
  import opened Text
  import FilenameRules


  /** The keyword table, in its insertion order, which `Object.entries`
      keeps. */
  const TagTable: seq<(string, seq<string>)> := [
    ("mountain", ["landscape", "mountain"]),
    ("forest", ["nature", "forest"]),
    ("ocean", ["seascape", "ocean"]),
    ("beach", ["seascape", "beach"]),
    ("sunset", ["landscape", "sunset"]),
    ("sunrise", ["landscape", "sunrise"]),
    ("nature", ["nature"]),
    ("landscape", ["landscape"]),
    ("portrait", ["portrait"]),
    ("photography", ["photography"])
  ]

  const DefaultTags: seq<string> := ["photography"]

  /** Row `i` is the first row whose keyword occurs in `name`. */
  predicate IsFirstKeyword(name: string, i: int) {
    && 0 <= i < |TagTable| && Contains(name, TagTable[i].0)
    && forall j :: 0 <= j < i ==> !Contains(name, TagTable[j].0)
  }

  function KeywordFrom(name: string, i: nat): (r: Option<nat>)
    requires i <= |TagTable|
    requires forall j :: 0 <= j < i ==> !Contains(name, TagTable[j].0)
    ensures r.Some? ==> IsFirstKeyword(name, r.value)
    ensures r.None? ==> forall j :: 0 <= j < |TagTable| ==> !Contains(name, TagTable[j].0)
    decreases |TagTable| - i
  {
    if i == |TagTable| then None
    else if Contains(name, TagTable[i].0) then Some(i)
    else KeywordFrom(name, i + 1)
  }

  /** The lower-cased name without extension, which the keywords are
      looked for in. */
  function TagKey(filename: string): string {
    Lower(FilenameRules.StripExtension(filename))
  }

  /** The tags of the first table keyword the lower-cased name contains,
      else `['photography']`. */
  function TagsFromFilename(filename: string): (r: seq<string>)
    ensures |r| >= 1
    ensures (exists i :: IsFirstKeyword(TagKey(filename), i) && r == TagTable[i].1)
            || ((forall j :: 0 <= j < |TagTable| ==> !Contains(TagKey(filename), TagTable[j].0))
                && r == DefaultTags)
  {
    match KeywordFrom(TagKey(filename), 0)
    case Some(i) => TagTable[i].1
    case None => DefaultTags
  }

  /** A tag is clean when it is non-empty, lower-case, trimmed and free of
      commas: what the admin tag editor produces and can read back. */
  predicate IsCleanTag(t: string) {
    t != "" && IsLowerCase(t) && IsTrimmed(t) && ',' !in t
  }

  predicate AllClean(tags: seq<string>) {
    forall k :: 0 <= k < |tags| ==> IsCleanTag(tags[k])
  }

  /** Every default tag is clean. */
  lemma DefaultTagsAreClean(filename: string)
    ensures AllClean(TagsFromFilename(filename))
  {
    match KeywordFrom(TagKey(filename), 0)
    case Some(i) =>
      TableTagsAreClean();
      assert AllClean(TagTable[i].1);
    case None =>
      AsciiWordIsClean("photography");
  }

  /** A non-empty run of `a`..`z`, as every table entry is. */
  predicate IsAsciiWord(t: string) {
    t != "" && forall i :: 0 <= i < |t| ==> 'a' <= t[i] <= 'z'
  }

  lemma AsciiWordIsClean(t: string)
    requires IsAsciiWord(t)
    ensures IsCleanTag(t)
  {
  }

  lemma TableTagsAreClean()
    ensures forall i :: 0 <= i < |TagTable| ==> AllClean(TagTable[i].1)
  {
    forall i, k | 0 <= i < |TagTable| && 0 <= k < |TagTable[i].1|
      ensures IsCleanTag(TagTable[i].1[k])
    {
      assert IsAsciiWord(TagTable[i].1[k]);
      AsciiWordIsClean(TagTable[i].1[k]);
    }
  }
}

=== FILE: session.dfy ===
/** The password gate shared by the upload page (js/auth.js) and the admin
    page (js/admin.js): a session record in local storage, checked against an
    explicit clock reading `now`. The two pages differ only in their
    allow-list and in the `role` they write, so one `Gate` value describes
    each. The gate is two-state: Unlocked while a parsable, unexpired record
    is stored, Locked otherwise. */
module Session {
  import opened Common
  import opened Text
  import Base64

  /** 24 hours in milliseconds (`24 * 60 * 60 * 1000`). */
  const SessionDuration: int := 86400000

  /** The stored session. `expiry` is `None` for a parsable record without a
      numeric `expiry` field; `now > undefined` is false in JavaScript, so
      such a record never expires. */
  datatype SessionRecord = SessionRecord(
    authenticated: bool,
    timestamp: int,
    expiry: Option<int>,
    passwordHash: string,
    role: Option<string>)

  /** One page's configuration: its plain-text allow-list (the source keeps
      the `btoa` of each entry) and the role it records. */
  datatype Gate = Gate(passwords: seq<string>, role: Option<string>)

  /** js/auth.js: the upload page. */
  const UploadGate: Gate := Gate(["upload123", "portfolio", "secret"], None)

  /** js/admin.js: the content editor. */
  const AdminGate: Gate := Gate(["admin123", "content", "manager"], Some("admin"))

  predicate Expired(r: SessionRecord, now: int) {
    r.expiry.Some? && now > r.expiry.value
  }

  // ---------------------------------------------------------------------------
  // Status check
  // ---------------------------------------------------------------------------

  datatype Status = Status(authenticated: bool, slot: Slot<SessionRecord>)

  /** `checkAuthStatus` / `checkAdminAuthStatus`: unlocked exactly when a
      parsable record is stored and `now` has not passed its expiry (the
      expiry instant itself still counts); a failed check leaves no record. */
  function CheckStatus(slot: Slot<SessionRecord>, now: int): (r: Status)
    ensures r.authenticated <==> slot.Stored? && !Expired(slot.value, now)
    ensures r.authenticated ==> r.slot == slot
    ensures !r.authenticated ==> r.slot == Absent
  {
    match slot
    case Absent => Status(false, Absent)
    case Corrupt => Status(false, Absent)
    case Stored(rec) =>
      if now > rec.expiry.GetOr(now) then Status(false, Absent) else Status(true, slot)
  }

  /** The expiry boundary: one millisecond past the expiry is locked, the
      expiry itself and anything before it unlocked. */
  lemma ExpiryBoundary(rec: SessionRecord, e: int)
    requires rec.expiry == Some(e)
    ensures !CheckStatus(Stored(rec), e + 1).authenticated
    ensures CheckStatus(Stored(rec), e).authenticated
    ensures CheckStatus(Stored(rec), e - 1).authenticated
  {
  }

  /** Checking again at the same instant changes nothing further. */
  lemma CheckStatusIdempotent(slot: Slot<SessionRecord>, now: int)
    ensures CheckStatus(CheckStatus(slot, now).slot, now) == CheckStatus(slot, now)
  {
  }

  // ---------------------------------------------------------------------------
  // Login
  // ---------------------------------------------------------------------------

  datatype LoginError = EmptyPassword | UnencodablePassword | WrongPassword

  datatype Attempt = Attempt(error: Option<LoginError>, slot: Slot<SessionRecord>) {
    predicate Granted() { error.None? }
  }

  /** `Object.values(passwords)`: the encoded allow-list. */
  function EncodedAllowList(passwords: seq<string>): (r: seq<string>)
    ensures forall e :: e in r <==> exists p :: p in passwords && Base64.Btoa(p) == Some(e)
  {
    if |passwords| == 0 then []
    else
      var rest := EncodedAllowList(passwords[1..]);
      assert forall p :: p in passwords[1..] ==> p in passwords;
      assert forall p :: p in passwords ==> p == passwords[0] || p in passwords[1..];
      match Base64.Btoa(passwords[0])
      case Some(e) => [e] + rest
      case None => rest
  }

  /** `authenticateUser` / `authenticateAdmin` with the two `Date.now()`
      readings as `issuedAt` and `clock`. The password is trimmed; an empty
      one is refused; `btoa` throws on a character above U+00FF, which
      aborts the handler before anything is written. Only a granted attempt
      writes a record. */
  function Authenticate(gate: Gate, slot: Slot<SessionRecord>, input: string,
                        issuedAt: int, clock: int): (r: Attempt)
    ensures r.error == Some(EmptyPassword) <==> Trim(input) == ""
    ensures !r.Granted() ==> r.slot == slot
    ensures r.Granted() ==>
              && Base64.Btoa(Trim(input)).Some?
              && r.slot == Stored(SessionRecord(true, issuedAt, Some(clock + SessionDuration),
                                                Base64.Btoa(Trim(input)).value, gate.role))
  {
    var password := Trim(input);
    if password == "" then Attempt(Some(EmptyPassword), slot)
    else
      match Base64.Btoa(password)
      case None => Attempt(Some(UnencodablePassword), slot)
      case Some(encoded) =>
        if encoded in EncodedAllowList(gate.passwords) then
          Attempt(None, Stored(SessionRecord(true, issuedAt, Some(clock + SessionDuration),
                                             encoded, gate.role)))
        else
          Attempt(Some(WrongPassword), slot)
  }

  /** Since `btoa` is injective, comparing encodings is comparing passwords:
      a login is granted exactly when the trimmed input is non-empty and on
      the allow-list. */
  lemma GrantedIffListed(gate: Gate, slot: Slot<SessionRecord>, input: string,
                         issuedAt: int, clock: int)
    requires AllLatin1(gate.passwords)
    ensures Authenticate(gate, slot, input, issuedAt, clock).Granted()
            <==> Trim(input) != "" && Trim(input) in gate.passwords
  {
    var password := Trim(input);
    var r := Authenticate(gate, slot, input, issuedAt, clock);
    var list := EncodedAllowList(gate.passwords);
    if r.Granted() {
      var e := Base64.Btoa(password).value;
      assert e in list;
      var p :| p in gate.passwords && Base64.Btoa(p) == Some(e);
      Base64.BtoaInjective(password, p);
    }
    if password != "" && password in gate.passwords {
      var i :| 0 <= i < |gate.passwords| && gate.passwords[i] == password;
      assert Base64.IsLatin1(password);
      var e := Base64.Btoa(password).value;
      assert e in list;
    }
  }

  predicate AllLatin1(passwords: seq<string>) {
    forall i :: 0 <= i < |passwords| ==> Base64.IsLatin1(passwords[i])
  }

  lemma AdminLoginIff(slot: Slot<SessionRecord>, input: string, issuedAt: int, clock: int)
    ensures Authenticate(AdminGate, slot, input, issuedAt, clock).Granted()
            <==> Trim(input) in {"admin123", "content", "manager"}
  {
    assert AllLatin1(AdminGate.passwords) by {
      assert Base64.IsLatin1("admin123") && Base64.IsLatin1("content") && Base64.IsLatin1("manager");
    }
    GrantedIffListed(AdminGate, slot, input, issuedAt, clock);
    var password := Trim(input);
    assert password in AdminGate.passwords <==> password in {"admin123", "content", "manager"};
    assert password in {"admin123", "content", "manager"} ==> password != "";
  }

  lemma UploadLoginIff(slot: Slot<SessionRecord>, input: string, issuedAt: int, clock: int)
    ensures Authenticate(UploadGate, slot, input, issuedAt, clock).Granted()
            <==> Trim(input) in {"upload123", "portfolio", "secret"}
  {
    assert AllLatin1(UploadGate.passwords) by {
      assert Base64.IsLatin1("upload123") && Base64.IsLatin1("portfolio") && Base64.IsLatin1("secret");
    }
    GrantedIffListed(UploadGate, slot, input, issuedAt, clock);
    var password := Trim(input);
    assert password in UploadGate.passwords <==> password in {"upload123", "portfolio", "secret"};
    assert password in {"upload123", "portfolio", "secret"} ==> password != "";
  }

  /** A granted login opens the gate for a full session: with the clock not
      running backwards between its two readings, the expiry is at least a
      day after the timestamp, and checks succeed up to the expiry. */
  lemma LoginOpensGate(gate: Gate, slot: Slot<SessionRecord>, input: string,
                       issuedAt: int, clock: int, now: int)
    requires Authenticate(gate, slot, input, issuedAt, clock).Granted()
    requires issuedAt <= clock
    ensures var rec := Authenticate(gate, slot, input, issuedAt, clock).slot.value;
            rec.expiry.value >= rec.timestamp + SessionDuration
    ensures CheckStatus(Authenticate(gate, slot, input, issuedAt, clock).slot, now).authenticated
            <==> now <= clock + SessionDuration
  {
  }

  /** The stored "hash" is the Base64 text of the password, so anyone who
      can read the record can recover the password. */
  lemma StoredHashRevealsPassword(gate: Gate, slot: Slot<SessionRecord>, input: string,
                                  issuedAt: int, clock: int)
    requires Authenticate(gate, slot, input, issuedAt, clock).Granted()
    ensures Base64.Decode(Authenticate(gate, slot, input, issuedAt, clock).slot.value.passwordHash)
            == Some(Base64.CodeUnits(Trim(input)))
  {
  }

  // ---------------------------------------------------------------------------
  // Logout and extension
  // ---------------------------------------------------------------------------

  /** `logout` removes the record. */
  function Logout(slot: Slot<SessionRecord>): (r: Slot<SessionRecord>)
    ensures forall now :: !CheckStatus(r, now).authenticated
  {
    Absent
  }

  /** `extendSession`: a stored record gets `expiry = now + 24h` and keeps
      every other field; with no record, or one that does not parse, nothing
      is written. */
  function ExtendSession(slot: Slot<SessionRecord>, now: int): (r: Slot<SessionRecord>)
    ensures !slot.Stored? ==> r == slot
    ensures slot.Stored? ==> r.Stored? && r.value.expiry == Some(now + SessionDuration)
    ensures slot.Stored? ==>
              r.value == slot.value.(expiry := Some(now + SessionDuration))
  {
    match slot
    case Stored(rec) => Stored(rec.(expiry := Some(now + SessionDuration)))
    case _ => slot
  }

  /** After an extension at `now`, the gate stays open until `now + 24h`. */
  lemma ExtendKeepsOpen(slot: Slot<SessionRecord>, now: int, later: int)
    requires slot.Stored?
    ensures CheckStatus(ExtendSession(slot, now), later).authenticated
            <==> later <= now + SessionDuration
  {
  }

  /** The activity timer and the `visibilitychange` handler: extend the
      session when the check at `now` passes. */
  function OnActivity(slot: Slot<SessionRecord>, now: int): (r: Slot<SessionRecord>)
    ensures r == Absent || (r.Stored? && r.value.expiry == Some(now + SessionDuration))
    ensures r.Stored? <==> CheckStatus(slot, now).authenticated
  {
    var status := CheckStatus(slot, now);
    if status.authenticated then ExtendSession(status.slot, now) else status.slot
  }
}

=== FILE: site_content.dfy ===
/** The editable site content of the admin page (js/admin.js): four
    sections stored as one document, read back as a shallow overlay on the
    built-in defaults, and updated one section at a time. */
module SiteContent {
  import opened Common
  import opened Text
  import FileChecks

  datatype Hero = Hero(title: string, subtitle: string)
  datatype About = About(paragraph1: string, paragraph2: string)
  datatype Contact = Contact(instagram: string, status: string)
  /** Data URLs of the two uploaded pictures; `None` is `null`. */
  datatype Images = Images(logo: Option<string>, portrait: Option<string>)

  datatype Content = Content(hero: Hero, about: About, contact: Contact, images: Images)

  /** A stored or patched document: the sections it carries. */
  datatype Doc = Doc(hero: Option<Hero>, about: Option<About>, contact: Option<Contact>,
                     images: Option<Images>)

  /** `DEFAULT_CONTENT` */
  const DefaultContent: Content := Content(
    Hero("Capturing Moments",
         "A curated collection of photography that tells stories through light and composition"),
    About("Welcome to my photography portfolio. I'm passionate about capturing the beauty of the natural world and sharing moments that inspire and move people. Each photograph tells a story, whether it's the serene tranquility of a mountain landscape or the dynamic energy of ocean waves.",
          "My work focuses on landscape and nature photography, always seeking to find the extraordinary in the ordinary and to showcase the incredible diversity and beauty of our planet."),
    Contact("@gabe_corr", "Available for commissions"),
    Images(None, None))

  /** `{ ...base, ...doc }`: each section the document carries replaces the
      whole section of `base`. */
  function Overlay(base: Content, doc: Doc): (r: Content)
    ensures r.hero == doc.hero.GetOr(base.hero)
    ensures r.about == doc.about.GetOr(base.about)
    ensures r.contact == doc.contact.GetOr(base.contact)
    ensures r.images == doc.images.GetOr(base.images)
  {
    Content(doc.hero.GetOr(base.hero), doc.about.GetOr(base.about),
            doc.contact.GetOr(base.contact), doc.images.GetOr(base.images))
  }

  /** The document that carries every section of `c`. */
  function Full(c: Content): Doc {
    Doc(Some(c.hero), Some(c.about), Some(c.contact), Some(c.images))
  }

  /** `getSiteContent()`: the stored document over the defaults; nothing
      stored, or a value that does not parse, gives the defaults. */
  function GetSiteContent(slot: Slot<Doc>): (r: Content)
    ensures !slot.Stored? ==> r == DefaultContent
    ensures slot.Stored? ==> r == Overlay(DefaultContent, slot.value)
  {
    match slot
    case Stored(doc) => Overlay(DefaultContent, doc)
    case _ => DefaultContent
  }

  /** `saveSiteContent(patch)`: the current content with the patch's
      sections replaced, stored in full. */
  function SaveSiteContent(slot: Slot<Doc>, patch: Doc): (r: Slot<Doc>)
    ensures r.Stored? && r.value == Full(Overlay(GetSiteContent(slot), patch))
  {
    Stored(Full(Overlay(GetSiteContent(slot), patch)))
  }

  /** Reading after a save sees the patch over what was there before. */
  lemma SaveThenGet(slot: Slot<Doc>, patch: Doc)
    ensures GetSiteContent(SaveSiteContent(slot, patch)) == Overlay(GetSiteContent(slot), patch)
  {
  }

  /** An empty patch rewrites the content unchanged. */
  lemma SaveNothingKeepsContent(slot: Slot<Doc>)
    ensures GetSiteContent(SaveSiteContent(slot, Doc(None, None, None, None))) == GetSiteContent(slot)
  {
  }

  // ---------------------------------------------------------------------------
  // Section editors
  // ---------------------------------------------------------------------------

  /** The result of a form submission: whether it was saved, and the
      storage slot afterwards. */
  datatype Submitted = Submitted(saved: bool, slot: Slot<Doc>)

  const NoSections: Doc := Doc(None, None, None, None)

  /** `updateHeroContent()`: both fields are trimmed; if either is then
      empty nothing is saved, otherwise only the hero section changes. */
  function UpdateHero(slot: Slot<Doc>, title: string, subtitle: string): (r: Submitted)
    ensures !r.saved <==> Trim(title) == "" || Trim(subtitle) == ""
    ensures !r.saved ==> r.slot == slot
    ensures r.saved ==> GetSiteContent(r.slot)
                          == GetSiteContent(slot).(hero := Hero(Trim(title), Trim(subtitle)))
  {
    var t, s := Trim(title), Trim(subtitle);
    if t == "" || s == "" then Submitted(false, slot)
    else Submitted(true, SaveSiteContent(slot, NoSections.(hero := Some(Hero(t, s)))))
  }

  /** `updateAboutContent()` */
  function UpdateAbout(slot: Slot<Doc>, paragraph1: string, paragraph2: string): (r: Submitted)
    ensures !r.saved <==> Trim(paragraph1) == "" || Trim(paragraph2) == ""
    ensures !r.saved ==> r.slot == slot
    ensures r.saved ==> GetSiteContent(r.slot)
                          == GetSiteContent(slot).(about := About(Trim(paragraph1), Trim(paragraph2)))
  {
    var p1, p2 := Trim(paragraph1), Trim(paragraph2);
    if p1 == "" || p2 == "" then Submitted(false, slot)
    else Submitted(true, SaveSiteContent(slot, NoSections.(about := Some(About(p1, p2)))))
  }

  /** `updateContactContent()` */
  function UpdateContact(slot: Slot<Doc>, instagram: string, status: string): (r: Submitted)
    ensures !r.saved <==> Trim(instagram) == "" || Trim(status) == ""
    ensures !r.saved ==> r.slot == slot
    ensures r.saved ==> GetSiteContent(r.slot)
                          == GetSiteContent(slot).(contact := Contact(Trim(instagram), Trim(status)))
  {
    var i, s := Trim(instagram), Trim(status);
    if i == "" || s == "" then Submitted(false, slot)
    else Submitted(true, SaveSiteContent(slot, NoSections.(contact := Some(Contact(i, s)))))
  }

  // ---------------------------------------------------------------------------
  // Logo and portrait
  // ---------------------------------------------------------------------------

  /** 5 MiB, the picture limit. */
  const MaxPictureSize: int := 5 * 1024 * 1024

  datatype Picture = Logo | Portrait

  datatype PictureError = NotAnImage | TooLarge

  datatype PictureResult = PictureResult(error: Option<PictureError>, slot: Slot<Doc>)

  /** The images section with one picture set and the other kept. */
  function WithPicture(images: Images, which: Picture, dataUrl: string): (r: Images)
    ensures which == Logo ==> r.logo == Some(dataUrl) && r.portrait == images.portrait
    ensures which == Portrait ==> r.portrait == Some(dataUrl) && r.logo == images.logo
  {
    match which
    case Logo => images.(logo := Some(dataUrl))
    case Portrait => images.(portrait := Some(dataUrl))
  }

  /** `handleLogoUpload` / `handlePortraitUpload` with the file's data URL
      (what `FileReader` produces) as `dataUrl`. No file does nothing; a
      type not starting with `image/` or a size above 5 MiB is refused, type
      first; otherwise the picture is set and the rest of the content kept. */
  function UploadPicture(slot: Slot<Doc>, which: Picture, file: Option<FileChecks.File>,
                         dataUrl: string): (r: PictureResult)
    ensures file.None? ==> r == PictureResult(None, slot)
    ensures file.Some? && !StartsWith(file.value.mimeType, "image/") ==>
              r == PictureResult(Some(NotAnImage), slot)
    ensures file.Some? && StartsWith(file.value.mimeType, "image/") && file.value.size > MaxPictureSize ==>
              r == PictureResult(Some(TooLarge), slot)
    ensures file.Some? && StartsWith(file.value.mimeType, "image/") && file.value.size <= MaxPictureSize ==>
              r.error.None?
    ensures r.error.None? && file.Some? ==>
              GetSiteContent(r.slot) == GetSiteContent(slot).(images :=
                WithPicture(GetSiteContent(slot).images, which, dataUrl))
  {
    match file
    case None => PictureResult(None, slot)
    case Some(f) =>
      if !StartsWith(f.mimeType, "image/") then PictureResult(Some(NotAnImage), slot)
      else if f.size > MaxPictureSize then PictureResult(Some(TooLarge), slot)
      else
        var images := WithPicture(GetSiteContent(slot).images, which, dataUrl);
        PictureResult(None, SaveSiteContent(slot, NoSections.(images := Some(images))))
  }

  /** A picture of exactly 5 MiB is accepted. */
  lemma PictureSizeBoundary(slot: Slot<Doc>, which: Picture, f: FileChecks.File, dataUrl: string)
    requires StartsWith(f.mimeType, "image/")
    ensures f.size == 5242880 ==> UploadPicture(slot, which, Some(f), dataUrl).error.None?
    ensures f.size == 5242881 ==> UploadPicture(slot, which, Some(f), dataUrl).error == Some(TooLarge)
  {
  }

  /** Setting the logo keeps the portrait, and the other way round. */
  lemma PictureKeepsTheOther(slot: Slot<Doc>, which: Picture, f: FileChecks.File, dataUrl: string)
    requires UploadPicture(slot, which, Some(f), dataUrl).error.None?
    ensures var after := GetSiteContent(UploadPicture(slot, which, Some(f), dataUrl).slot).images;
            var before := GetSiteContent(slot).images;
            (which == Logo ==> after.portrait == before.portrait && after.logo == Some(dataUrl))
            && (which == Portrait ==> after.logo == before.logo && after.portrait == Some(dataUrl))
  {
  }
}

=== FILE: string_order.dfy ===
/** The order `Array.prototype.sort` uses when no comparator is given: strings
    compared by their UTF-16 code units. Dafny strings hold code points, so the
    order is stated on code points through `UnitRank`, and `LessIsUtf16Order`
    proves it equal to comparing the UTF-16 encodings. */
module StringOrder {

  /** The rank of a code point in UTF-16 code-unit order: code points below
      U+D800 come first, then every supplementary code point (whose first unit
      is a surrogate, U+D800..U+DBFF), then U+E000..U+FFFF. */
  function UnitRank(c: char): int {
    var v := c as int;
    if v < 0xD800 then v
    else if v >= 0x10000 then v - 0x10000 + 0xD800
    else v + 0x100000
  }

  /** `a` sorts strictly before `b`. */
  predicate Less(a: string, b: string)
    decreases |a|
  {
    if |a| == 0 then |b| > 0
    else if |b| == 0 then false
    else if a[0] == b[0] then Less(a[1..], b[1..])
    else UnitRank(a[0]) < UnitRank(b[0])
  }

  lemma {:induction false} LessIrreflexive(a: string)
    ensures !Less(a, a)
    decreases |a|
  {
    if |a| > 0 {
      LessIrreflexive(a[1..]);
    }
  }

  lemma {:induction false} LessTransitive(a: string, b: string, c: string)
    requires Less(a, b) && Less(b, c)
    ensures Less(a, c)
    decreases |a|
  {
    if |a| > 0 && a[0] == b[0] && b[0] == c[0] {
      LessTransitive(a[1..], b[1..], c[1..]);
    }
  }

  /** Any two different strings are ordered one way or the other. */
  lemma {:induction false} LessTotal(a: string, b: string)
    ensures a == b || Less(a, b) || Less(b, a)
    decreases |a|
  {
    if |a| > 0 && |b| > 0 && a[0] == b[0] {
      LessTotal(a[1..], b[1..]);
      if a[1..] == b[1..] {
        assert a == [a[0]] + a[1..] && b == [b[0]] + b[1..];
      }
    }
  }

  lemma {:induction false} LessAsymmetric(a: string, b: string)
    requires Less(a, b)
    ensures !Less(b, a)
    decreases |a|
  {
    if |a| > 0 && a[0] == b[0] {
      LessAsymmetric(a[1..], b[1..]);
    }
  }

  // ---------------------------------------------------------------------------
  // The reference definition: UTF-16 code units compared lexicographically
  // ---------------------------------------------------------------------------

  /** The UTF-16 code units of one code point. */
  function Units(c: char): seq<int> {
    var v := c as int;
    if v < 0x10000 then [v]
    else [0xD800 + (v - 0x10000) / 0x400, 0xDC00 + (v - 0x10000) % 0x400]
  }

  /** The UTF-16 encoding of a string. */
  function Utf16(s: string): seq<int>
    decreases |s|
  {
    if |s| == 0 then [] else Units(s[0]) + Utf16(s[1..])
  }

  /** Lexicographic order on code-unit sequences, a proper prefix first. */
  predicate UnitsLess(x: seq<int>, y: seq<int>)
    decreases |x|
  {
    if |x| == 0 then |y| > 0
    else if |y| == 0 then false
    else if x[0] == y[0] then UnitsLess(x[1..], y[1..])
    else x[0] < y[0]
  }

  lemma {:induction false} UnitsLessCommonPrefix(p: seq<int>, x: seq<int>, y: seq<int>)
    ensures UnitsLess(p + x, p + y) == UnitsLess(x, y)
    decreases |p|
  {
    if |p| > 0 {
      assert (p + x)[1..] == p[1..] + x;
      assert (p + y)[1..] == p[1..] + y;
      assert (p + x)[0] == (p + y)[0];
      UnitsLessCommonPrefix(p[1..], x, y);
    } else {
      assert p + x == x && p + y == y;
    }
  }

  /** Two different code points are told apart within their own units, in the
      order of their ranks, whatever follows them. */
  lemma UnitsLessDifferentHeads(c: char, d: char, x: seq<int>, y: seq<int>)
    requires c != d
    ensures UnitsLess(Units(c) + x, Units(d) + y) == (UnitRank(c) < UnitRank(d))
  {
    var u, w := Units(c) + x, Units(d) + y;
    var v, t := c as int, d as int;
    if v >= 0x10000 && t >= 0x10000 && (v - 0x10000) / 0x400 == (t - 0x10000) / 0x400 {
      assert u[0] == w[0];
      assert u[1..][0] == 0xDC00 + (v - 0x10000) % 0x400;
      assert w[1..][0] == 0xDC00 + (t - 0x10000) % 0x400;
      assert (v - 0x10000) % 0x400 != (t - 0x10000) % 0x400;
    }
  }

  /** `Less` is exactly JavaScript's default sort order on the UTF-16 forms. */
  lemma {:induction false} LessIsUtf16Order(a: string, b: string)
    ensures Less(a, b) == UnitsLess(Utf16(a), Utf16(b))
    decreases |a|
  {
    if |a| > 0 && |b| > 0 {
      if a[0] == b[0] {
        LessIsUtf16Order(a[1..], b[1..]);
        UnitsLessCommonPrefix(Units(a[0]), Utf16(a[1..]), Utf16(b[1..]));
      } else {
        UnitsLessDifferentHeads(a[0], b[0], Utf16(a[1..]), Utf16(b[1..]));
      }
    }
  }
}

=== FILE: tag_index.dfy ===
/** The tag list and tag filter of the gallery page (js/gallery-manager.js):
    `getAllTags` lists the distinct lower-cased tags in the order of the
    default `Array.prototype.sort`, and `filterImages` keeps, in order, the
    images carrying a tag case-insensitively. */
module TagIndex {
  import opened Common
  import opened Text
  import opened StringOrder
  import opened Gallery

  /** The image has a tag whose lower-case form is `key`; an image without a
      tag list has none. */
  predicate ImageHasTag(img: Image, key: string) {
    img.tags.Some? && exists k :: 0 <= k < |img.tags.value| && Lower(img.tags.value[k]) == key
  }

  /** Some image in the list has a tag lower-casing to `key`. */
  predicate AnyHasTag(images: seq<Image>, key: string) {
    exists i :: 0 <= i < |images| && ImageHasTag(images[i], key)
  }

  /** Strictly increasing, hence sorted and free of duplicates. */
  predicate StrictlySorted(xs: seq<string>) {
    forall i, j :: 0 <= i < j < |xs| ==> Less(xs[i], xs[j])
  }

  // ---------------------------------------------------------------------------
  // getAllTags
  // ---------------------------------------------------------------------------

  /** Adds `t` to a strictly sorted list unless it is already there. */
  function Insert(xs: seq<string>, t: string): (r: seq<string>)
    requires StrictlySorted(xs)
    ensures StrictlySorted(r)
    ensures forall s :: s in r <==> s in xs || s == t
    decreases |xs|
  {
    if |xs| == 0 then [t]
    else if t == xs[0] then xs
    else if Less(t, xs[0]) then
      forall j | 0 < j < |xs|
        ensures Less(t, xs[j])
      {
        LessTransitive(t, xs[0], xs[j]);
      }
      [t] + xs
    else
      LessTotal(t, xs[0]);
      var rest := Insert(xs[1..], t);
      assert forall s :: s in xs <==> s == xs[0] || s in xs[1..];
      assert forall j :: 0 <= j < |rest| ==> Less(xs[0], rest[j]) by {
        forall j | 0 <= j < |rest|
          ensures Less(xs[0], rest[j])
        {
          assert rest[j] in rest;
          if rest[j] != t {
            var k :| 0 <= k < |xs[1..]| && xs[1..][k] == rest[j];
            assert xs[k + 1] == rest[j];
          }
        }
      }
      [xs[0]] + rest
  }

  /** Adds the lower-case form of every tag in `ts`. */
  function InsertAll(xs: seq<string>, ts: seq<string>): (r: seq<string>)
    requires StrictlySorted(xs)
    ensures StrictlySorted(r)
    ensures forall s :: s in r <==> s in xs || exists k :: 0 <= k < |ts| && Lower(ts[k]) == s
    decreases |ts|
  {
    if |ts| == 0 then xs
    else
      var r := InsertAll(Insert(xs, Lower(ts[0])), ts[1..]);
      assert forall k :: 0 < k < |ts| ==> ts[1..][k - 1] == ts[k];
      r
  }

  /** `getAllTags()`: the distinct lower-cased tags of all images, sorted. */
  function GetAllTags(images: seq<Image>): (r: seq<string>)
    ensures StrictlySorted(r)
    ensures forall s :: s in r <==> AnyHasTag(images, s)
    decreases |images|
  {
    if |images| == 0 then []
    else
      var init := images[..|images| - 1];
      var last := images[|images| - 1];
      var r := InsertAll(GetAllTags(init), if last.tags.Some? then last.tags.value else []);
      assert forall s :: AnyHasTag(images, s) <==> AnyHasTag(init, s) || ImageHasTag(last, s) by {
        forall s | AnyHasTag(images, s)
          ensures AnyHasTag(init, s) || ImageHasTag(last, s)
        {
          var i :| 0 <= i < |images| && ImageHasTag(images[i], s);
          if i < |images| - 1 {
            assert init[i] == images[i];
          }
        }
        forall s | AnyHasTag(init, s)
          ensures AnyHasTag(images, s)
        {
          var i :| 0 <= i < |init| && ImageHasTag(init[i], s);
          assert images[i] == init[i];
        }
      }
      r
  }

  /** Every listed tag is lower-case. */
  lemma AllTagsLowerCase(images: seq<Image>)
    ensures forall k :: 0 <= k < |GetAllTags(images)| ==> IsLowerCase(GetAllTags(images)[k])
  {
    var r := GetAllTags(images);
    forall k | 0 <= k < |r|
      ensures IsLowerCase(r[k])
    {
      assert AnyHasTag(images, r[k]);
      var i :| 0 <= i < |images| && ImageHasTag(images[i], r[k]);
      var j :| 0 <= j < |images[i].tags.value| && Lower(images[i].tags.value[j]) == r[k];
      LowerIsLowerCase(images[i].tags.value[j]);
    }
  }

  /** A strictly sorted list is determined by its elements, so whatever order
      the tags were collected in, sorting gives this one list. */
  lemma {:induction false} SortedListIsUnique(xs: seq<string>, ys: seq<string>)
    requires StrictlySorted(xs) && StrictlySorted(ys)
    requires forall s :: s in xs <==> s in ys
    ensures xs == ys
    decreases |xs|
  {
    if |xs| > 0 {
      assert xs[0] in xs;
    }
    if |ys| > 0 {
      assert ys[0] in ys;
    }
    if |xs| > 0 && |ys| > 0 {
      assert xs[0] == ys[0] by {
        if xs[0] != ys[0] {
          LessTotal(xs[0], ys[0]);
          assert xs[0] in ys && ys[0] in xs;
          var i :| 0 <= i < |ys| && ys[i] == xs[0];
          var j :| 0 <= j < |xs| && xs[j] == ys[0];
          if Less(xs[0], ys[0]) {
            assert i > 0;
            LessAsymmetric(xs[0], ys[0]);
          }
        }
      }
      forall s
        ensures s in xs[1..] <==> s in ys[1..]
      {
        if s in xs[1..] {
          var i :| 1 <= i < |xs| && xs[i] == s;
          assert Less(xs[0], s);
          LessIrreflexive(s);
          assert s != ys[0];
          assert s in ys;
          var j :| 0 <= j < |ys| && ys[j] == s;
          assert ys[1..][j - 1] == s;
        }
        if s in ys[1..] {
          var i :| 1 <= i < |ys| && ys[i] == s;
          assert Less(ys[0], s);
          LessIrreflexive(s);
          assert s != xs[0];
          assert s in xs;
          var j :| 0 <= j < |xs| && xs[j] == s;
          assert xs[1..][j - 1] == s;
        }
      }
      SortedListIsUnique(xs[1..], ys[1..]);
      assert xs == [xs[0]] + xs[1..] && ys == [ys[0]] + ys[1..];
    }
  }

  /** `getAllTags` is the sorted listing of the set of lower-cased tags. */
  lemma GetAllTagsIsTheSortedSet(images: seq<Image>, xs: seq<string>)
    requires StrictlySorted(xs)
    requires forall s :: s in xs <==> AnyHasTag(images, s)
    ensures GetAllTags(images) == xs
  {
    SortedListIsUnique(GetAllTags(images), xs);
  }

  // ---------------------------------------------------------------------------
  // filterImages
  // ---------------------------------------------------------------------------

  /** The images having a tag that lower-cases to `key`, in list order. */
  function Select(images: seq<Image>, key: string): (r: seq<Image>)
    ensures |r| <= |images|
    ensures forall i :: 0 <= i < |r| ==> r[i] in images && ImageHasTag(r[i], key)
    ensures forall i :: 0 <= i < |images| && ImageHasTag(images[i], key) ==> images[i] in r
    decreases |images|
  {
    if |images| == 0 then []
    else
      var rest := Select(images[1..], key);
      assert forall x :: x in images[1..] ==> x in images;
      assert forall i :: 0 < i < |images| ==> images[i] == images[1..][i - 1];
      if ImageHasTag(images[0], key) then [images[0]] + rest else rest
  }

  /** Selection keeps order: selecting from a concatenation concatenates the
      selections. */
  lemma {:induction false} SelectAppend(a: seq<Image>, b: seq<Image>, key: string)
    ensures Select(a + b, key) == Select(a, key) + Select(b, key)
    decreases |a|
  {
    if |a| > 0 {
      assert (a + b)[1..] == a[1..] + b;
      assert (a + b)[0] == a[0];
      SelectAppend(a[1..], b, key);
    } else {
      assert a + b == b;
    }
  }

  /** `filterImages(tag)`: the exact string `'all'` returns the list as it
      is; any other tag selects the images with a tag equal to it ignoring
      case. */
  function FilterImages(images: seq<Image>, tag: string): (r: seq<Image>)
    ensures tag == "all" ==> r == images
    ensures tag != "all" ==> r == Select(images, Lower(tag))
  {
    if tag == "all" then images else Select(images, Lower(tag))
  }

  /** Images without a tag list are never selected by a tag. */
  lemma UntaggedNeverSelected(images: seq<Image>, tag: string, img: Image)
    requires tag != "all" && img.tags.None?
    ensures img !in FilterImages(images, tag)
  {
  }

  /** Only the exact string `all` is the sentinel: `All` is an ordinary tag. */
  lemma CapitalAllIsATag(images: seq<Image>)
    ensures FilterImages(images, "All") == Select(images, "all")
  {
    assert Lower("All") == "all";
  }

  /** Tags differing only in case filter alike. */
  lemma FilterIgnoresCase(images: seq<Image>, t: string, u: string)
    requires t != "all" && u != "all" && Lower(t) == Lower(u)
    ensures FilterImages(images, t) == FilterImages(images, u)
  {
  }

  /** Every listed tag selects at least one image. */
  lemma ListedTagSelectsSome(images: seq<Image>, t: string)
    requires t in GetAllTags(images)
    ensures |FilterImages(images, t)| > 0
  {
    var i :| 0 <= i < |images| && ImageHasTag(images[i], t);
    if t != "all" {
      var k :| 0 <= k < |images[i].tags.value| && Lower(images[i].tags.value[k]) == t;
      LowerIsLowerCase(images[i].tags.value[k]);
      LowerOfLowerCase(t);
      assert images[i] in Select(images, Lower(t));
    }
  }
}

=== FILE: text.dfy ===
/** The handful of JavaScript string operations the site relies on, written
    out over `seq<char>`: `toLowerCase`, `trim`, `split(',')`, `join`,
    `includes`, `startsWith`, and decimal number formatting and parsing. */
module Text {

  // ---------------------------------------------------------------------------
  // Case mapping
  // ---------------------------------------------------------------------------

  /** Characters that `toLowerCase` maps to another single character, within
      ASCII and the Latin-1 supplement (U+00C0..U+00DE except U+00D7). */
  predicate IsUpper(c: char) {
    ('A' <= c <= 'Z') || ('\U{C0}' <= c <= '\U{DE}' && c != '\U{D7}')
  }

  function LowerChar(c: char): (r: char)
    ensures !IsUpper(r)
    ensures !IsUpper(c) ==> r == c
  {
    if IsUpper(c) then (c as int + 32) as char else c
  }

  /** `s.toLowerCase()` */
  function Lower(s: string): (r: string)
    ensures |r| == |s|
    ensures forall i :: 0 <= i < |s| ==> r[i] == LowerChar(s[i])
  {
    seq(|s|, i requires 0 <= i < |s| => LowerChar(s[i]))
  }

  /** A string that `toLowerCase` leaves as it is. */
  predicate IsLowerCase(s: string) {
    forall i :: 0 <= i < |s| ==> !IsUpper(s[i])
  }

  lemma LowerIsLowerCase(s: string)
    ensures IsLowerCase(Lower(s))
  {
  }

  lemma LowerOfLowerCase(s: string)
    requires IsLowerCase(s)
    ensures Lower(s) == s
  {
  }

  // ---------------------------------------------------------------------------
  // Whitespace and trim
  // ---------------------------------------------------------------------------

  /** The WhiteSpace and LineTerminator code points that `String.prototype.trim`
      removes (section 22.1.3.32 of ECMA-262). */
  predicate IsSpace(c: char) {
    || c == '\t' || c == '\n' || c == '\U{B}' || c == '\U{C}' || c == '\r'
    || c == ' ' || c == '\U{A0}' || c == '\U{1680}'
    || ('\U{2000}' <= c <= '\U{200A}')
    || c == '\U{2028}' || c == '\U{2029}' || c == '\U{202F}' || c == '\U{205F}'
    || c == '\U{3000}' || c == '\U{FEFF}'
  }

  predicate AllSpace(s: string) {
    forall i :: 0 <= i < |s| ==> IsSpace(s[i])
  }

  /** Neither end of the string is whitespace. */
  predicate IsTrimmed(s: string) {
    |s| == 0 || (!IsSpace(s[0]) && !IsSpace(s[|s| - 1]))
  }

  function TrimStart(s: string): (r: string)
    ensures |r| <= |s| && r == s[|s| - |r|..]
    ensures AllSpace(s[..|s| - |r|])
    ensures |r| == 0 || !IsSpace(r[0])
  {
    if |s| > 0 && IsSpace(s[0]) then
      var r := TrimStart(s[1..]);
      assert s[..|s| - |r|] == [s[0]] + s[1..][..|s| - 1 - |r|];
      r
    else
      s
  }

  function TrimEnd(s: string): (r: string)
    ensures |r| <= |s| && r == s[..|r|]
    ensures AllSpace(s[|r|..])
    ensures |r| == 0 || !IsSpace(r[|r| - 1])
  {
    if |s| > 0 && IsSpace(s[|s| - 1]) then
      var r := TrimEnd(s[..|s| - 1]);
      assert s[|r|..] == s[..|s| - 1][|r|..] + [s[|s| - 1]];
      r
    else
      s
  }

  /** `r` is the slice of `s` starting at `i`, and everything around it is
      whitespace. */
  predicate IsTrimSliceAt(s: string, r: string, i: int) {
    && 0 <= i <= |s| - |r| && r == s[i..i + |r|]
    && AllSpace(s[..i]) && AllSpace(s[i + |r|..])
  }

  /** `s.trim()`: the longest slice of `s` with no whitespace at either end,
      reached by dropping only whitespace. */
  function Trim(s: string): (r: string)
    ensures IsTrimmed(r)
    ensures exists i :: IsTrimSliceAt(s, r, i)
  {
    var t := TrimStart(s);
    var r := TrimEnd(t);
    var i := |s| - |t|;
    assert r == s[i..i + |r|];
    assert s[i + |r|..] == t[|r|..];
    assert IsTrimSliceAt(s, r, i);
    r
  }

  lemma TrimOfTrimmed(s: string)
    requires IsTrimmed(s)
    ensures Trim(s) == s
  {
  }

  /** A trimmed string with whitespace in front of it trims back to itself. */
  lemma TrimAfterSpace(c: char, s: string)
    requires IsSpace(c) && IsTrimmed(s)
    ensures Trim([c] + s) == s
  {
    assert ([c] + s)[1..] == s;
  }

  lemma TrimEmptyIffAllSpace(s: string)
    ensures Trim(s) == "" <==> AllSpace(s)
  {
  }

  lemma LowerKeepsSpace(s: string)
    ensures forall i :: 0 <= i < |s| ==> (IsSpace(Lower(s)[i]) <==> IsSpace(s[i]))
  {
  }

  /** Lower-casing a trimmed string keeps it trimmed. */
  lemma LowerKeepsTrimmed(s: string)
    requires IsTrimmed(s)
    ensures IsTrimmed(Lower(s))
  {
  }

  // ---------------------------------------------------------------------------
  // split / join
  // ---------------------------------------------------------------------------

  /** `s.split(sep)` for a one-character separator; like JavaScript, the empty
      string splits into one empty piece. */
  function Split(s: string, sep: char): (r: seq<string>)
    ensures |r| >= 1
    ensures forall k :: 0 <= k < |r| ==> sep !in r[k]
    decreases |s|
  {
    if |s| == 0 then [""]
    else if s[0] == sep then [""] + Split(s[1..], sep)
    else
      var rest := Split(s[1..], sep);
      [[s[0]] + rest[0]] + rest[1..]
  }

  /** `xs.join(sep)` */
  function Join(xs: seq<string>, sep: string): string
    decreases |xs|
  {
    if |xs| == 0 then ""
    else if |xs| == 1 then xs[0]
    else xs[0] + sep + Join(xs[1..], sep)
  }

  /** Splitting at a separator splits each side on its own. */
  lemma {:induction false} SplitConcat(a: string, b: string, sep: char)
    ensures Split(a + [sep] + b, sep) == Split(a, sep) + Split(b, sep)
    decreases |a|
  {
    if |a| == 0 {
      assert a + [sep] + b == [sep] + b;
      assert ([sep] + b)[1..] == b;
    } else {
      assert (a + [sep] + b)[1..] == a[1..] + [sep] + b;
      SplitConcat(a[1..], b, sep);
    }
  }

  lemma {:induction false} SplitWithoutSeparator(s: string, sep: char)
    requires sep !in s
    ensures Split(s, sep) == [s]
    decreases |s|
  {
    if |s| > 0 {
      assert sep !in s[1..];
      SplitWithoutSeparator(s[1..], sep);
      assert [s[0]] + s[1..] == s;
    }
  }

  /** Joining pieces that do not contain the separator and splitting again
      gives the pieces back. */
  lemma {:induction false} SplitJoin(xs: seq<string>, sep: char)
    requires |xs| >= 1
    requires forall k :: 0 <= k < |xs| ==> sep !in xs[k]
    ensures Split(Join(xs, [sep]), sep) == xs
    decreases |xs|
  {
    SplitWithoutSeparator(xs[0], sep);
    if |xs| > 1 {
      SplitJoin(xs[1..], sep);
      SplitConcat(xs[0], Join(xs[1..], [sep]), sep);
      assert [xs[0]] + xs[1..] == xs;
    }
  }

  /** Splitting and joining again gives the string back. */
  lemma {:induction false} JoinSplit(s: string, sep: char)
    ensures Join(Split(s, sep), [sep]) == s
    decreases |s|
  {
    if |s| > 0 {
      JoinSplit(s[1..], sep);
      var rest := Split(s[1..], sep);
      if s[0] == sep {
        assert Split(s, sep)[1..] == rest;
        assert [s[0]] + s[1..] == s;
      } else {
        var r := Split(s, sep);
        assert r[1..] == rest[1..];
        if |rest| == 1 {
          assert [s[0]] + s[1..] == s;
        } else {
          assert rest == [rest[0]] + rest[1..];
          assert Join(rest, [sep]) == rest[0] + [sep] + Join(rest[1..], [sep]);
          assert [s[0]] + s[1..] == s;
        }
      }
    }
  }

  // ---------------------------------------------------------------------------
  // includes / startsWith
  // ---------------------------------------------------------------------------

  /** `k` occurs in `s` at index `i`. */
  predicate OccursAt(s: string, k: string, i: int) {
    0 <= i <= |s| - |k| && s[i..i + |k|] == k
  }

  /** `s.includes(k)` */
  predicate Contains(s: string, k: string) {
    exists i | 0 <= i <= |s| - |k| :: OccursAt(s, k, i)
  }

  /** `s.startsWith(p)` */
  predicate StartsWith(s: string, p: string) {
    |p| <= |s| && s[..|p|] == p
  }

  // ---------------------------------------------------------------------------
  // Decimal numbers
  // ---------------------------------------------------------------------------

  predicate IsDigit(c: char) {
    '0' <= c <= '9'
  }

  predicate AllDigits(s: string) {
    forall i :: 0 <= i < |s| ==> IsDigit(s[i])
  }

  /** ASCII letters and digits: what `/[^a-zA-Z0-9]/g` keeps. */
  predicate IsAsciiAlphanumeric(c: char) {
    ('a' <= c <= 'z') || ('A' <= c <= 'Z') || IsDigit(c)
  }

  function DigitChar(d: nat): (c: char)
    requires d < 10
    ensures IsDigit(c)
  {
    ('0' as int + d) as char
  }

  /** `parseInt(s, 10)` of a string of decimal digits. */
  function DecimalValue(s: string): nat
    requires AllDigits(s)
    decreases |s|
  {
    if |s| == 0 then 0
    else DecimalValue(s[..|s| - 1]) * 10 + (s[|s| - 1] as int - '0' as int)
  }

  /** The decimal form of a non-negative integer, as `String(n)` writes it:
      digits only, with no leading zero unless it is `"0"`. */
  function NatToString(n: nat): (r: string)
    ensures |r| >= 1 && AllDigits(r)
    ensures |r| > 1 ==> r[0] != '0'
  {
    if n < 10 then [DigitChar(n)] else NatToString(n / 10) + [DigitChar(n % 10)]
  }

  /** Formatting a number and parsing it again gives the number back. */
  lemma {:induction false} DecimalRoundTrip(n: nat)
    ensures DecimalValue(NatToString(n)) == n
  {
    if n >= 10 {
      var s := NatToString(n);
      DecimalRoundTrip(n / 10);
      assert s[..|s| - 1] == NatToString(n / 10);
    }
  }

  /** `String(i)` for an integer: a minus sign exactly for a negative
      number, then the decimal digits of its magnitude. */
  function IntToString(i: int): (r: string)
    ensures i < 0 <==> |r| > 0 && r[0] == '-'
    ensures i >= 0 ==> AllDigits(r) && DecimalValue(r) == i
    ensures i < 0 ==> AllDigits(r[1..]) && DecimalValue(r[1..]) == -i
  {
    if i < 0 then
      DecimalRoundTrip(-i);
      assert ("-" + NatToString(-i))[1..] == NatToString(-i);
      "-" + NatToString(-i)
    else
      DecimalRoundTrip(i);
      NatToString(i)
  }
}

=== FILE: upload_page.dfy ===
/** The upload page as a whole (js/auth.js with js/upload.js): the session
    slot of the password gate, the upload list, and whether the upload
    interface is showing. Timers and DOM events become explicit steps that
    take the clock reading `now`. */
module UploadPage {
  import opened Common
  import Session
  import Uploads

  datatype Page = Page(
    session: Slot<Session.SessionRecord>,
    uploads: Uploads.UploadState,
    interfaceShown: bool)

  /** `showUploadInterface` runs `initializeUpload`, which loads the stored
      list. */
  function ShowInterface(p: Page): (r: Page)
    ensures r.interfaceShown && r.session == p.session
    ensures r.uploads == Uploads.LoadExistingImages(p.uploads)
  {
    Page(p.session, Uploads.LoadExistingImages(p.uploads), true)
  }

  /** `initializeAuth` on page load: the interface shows exactly when the
      session check passes; a failed check removes the record. */
  function Open(p: Page, now: int): (r: Page)
    ensures r.interfaceShown <==> Session.CheckStatus(p.session, now).authenticated
    ensures r.session == Session.CheckStatus(p.session, now).slot
  {
    var status := Session.CheckStatus(p.session, now);
    if status.authenticated then ShowInterface(p.(session := status.slot))
    else p.(session := status.slot, interfaceShown := false)
  }

  /** `authenticateUser` with the two clock readings: a granted attempt
      stores the record and shows the interface; a refused one changes
      nothing. */
  function Login(p: Page, input: string, issuedAt: int, clock: int): (r: Page)
    ensures Session.Authenticate(Session.UploadGate, p.session, input, issuedAt, clock).Granted() ==>
              && r.interfaceShown
              && r.session == Session.Authenticate(Session.UploadGate, p.session, input, issuedAt, clock).slot
    ensures !Session.Authenticate(Session.UploadGate, p.session, input, issuedAt, clock).Granted() ==> r == p
  {
    var attempt := Session.Authenticate(Session.UploadGate, p.session, input, issuedAt, clock);
    if attempt.Granted() then ShowInterface(p.(session := attempt.slot)) else p
  }

  /** `logout()`: the record is removed, the password overlay replaces the
      interface, and the upload session is cleared. */
  function Logout(p: Page): (r: Page)
    ensures !r.interfaceShown && r.uploads.images == [] && r.uploads.stored == Absent
    ensures forall now :: !Session.CheckStatus(r.session, now).authenticated
  {
    Page(Session.Logout(p.session), Uploads.ClearUploadSession(p.uploads), false)
  }

  /** The once-a-minute check: when the session check fails while the
      interface is showing, the page logs out; otherwise only the check's
      own removal of a bad record happens. */
  function PeriodicCheck(p: Page, now: int): (r: Page)
    ensures Session.CheckStatus(p.session, now).authenticated ==> r == p
    ensures !Session.CheckStatus(p.session, now).authenticated && p.interfaceShown ==> r == Logout(p)
    ensures !Session.CheckStatus(p.session, now).authenticated && !p.interfaceShown ==>
              r == p.(session := Absent)
  {
    var status := Session.CheckStatus(p.session, now);
    if !status.authenticated && p.interfaceShown then Logout(p.(session := status.slot))
    else p.(session := status.slot)
  }

  /** The activity timer: extend the session when the check passes. */
  function ActivityTick(p: Page, now: int): (r: Page)
    ensures r.uploads == p.uploads && r.interfaceShown == p.interfaceShown
    ensures r.session == Session.OnActivity(p.session, now)
  {
    p.(session := Session.OnActivity(p.session, now))
  }

  /** `visibilitychange`: a hidden page does nothing (the check is not even
      run); a visible one behaves like the activity timer. */
  function VisibilityChange(p: Page, hidden: bool, now: int): (r: Page)
    ensures hidden ==> r == p
    ensures !hidden ==> r == ActivityTick(p, now)
  {
    if hidden then p else ActivityTick(p, now)
  }

  /** Interface and session agree: the interface shows only while a record
      is stored. */
  predicate Consistent(p: Page) {
    p.interfaceShown ==> p.session.Stored?
  }

  /** Loading, logging in, logging out and the periodic check keep the
      interface hidden while no record is stored; the periodic check even
      restores that from any state. */
  lemma StepsKeepConsistent(p: Page, now: int, input: string, issuedAt: int, clock: int)
    requires Consistent(p)
    ensures Consistent(Open(p, now))
    ensures Consistent(Login(p, input, issuedAt, clock))
    ensures Consistent(Logout(p))
    ensures Consistent(PeriodicCheck(p, now))
  {
  }

  /** The activity timer and the visibility handler are the exception: when
      they find the session expired they remove the record but leave the
      interface up, until the next periodic check logs out. */
  lemma ActivityLeavesInterfaceUp(p: Page, now: int)
    requires p.interfaceShown && p.session.Stored? && Session.Expired(p.session.value, now)
    ensures !Consistent(ActivityTick(p, now))
    ensures !Consistent(VisibilityChange(p, false, now))
    ensures Consistent(PeriodicCheck(ActivityTick(p, now), now))
    ensures PeriodicCheck(ActivityTick(p, now), now) == Logout(p)
  {
  }

  /** An expired session found by the periodic check while the interface
      shows ends the upload session: the list is emptied and its stored copy
      removed. */
  lemma ExpiryClearsUploads(p: Page, now: int)
    requires p.interfaceShown && p.session.Stored? && Session.Expired(p.session.value, now)
    ensures var r := PeriodicCheck(p, now);
            !r.interfaceShown && r.uploads == Uploads.UploadState([], Absent) && r.session == Absent
  {
  }

  /** A session kept alive by activity survives the periodic check for the
      next 24 hours. */
  lemma ActivityThenCheck(p: Page, now: int, later: int)
    requires Session.CheckStatus(p.session, now).authenticated
    requires later <= now + Session.SessionDuration
    ensures PeriodicCheck(ActivityTick(p, now), later) == ActivityTick(p, now)
  {
    Session.ExtendKeepsOpen(p.session, now, later);
  }
}

=== FILE: uploads.dfy ===
/** The upload page's list of uploaded images (js/upload.js): files are
    screened by type and size, the ones whose (simulated) upload succeeds are
    appended to the in-memory list, and after every change the list's
    metadata, without the short-lived object URLs, is written to local
    storage under `portfolioImages`. */
module Uploads {
  import opened Common
  import opened FileChecks

  // ---------------------------------------------------------------------------
  // Screening: handleFiles and validateImage
  // ---------------------------------------------------------------------------

  /** A file passes both checks of `SecurityUtils` with the default limit. */
  predicate Acceptable(f: File) {
    IsValidImageType(f) && IsValidFileSize(f, DefaultMaxSize)
  }

  /** The message `handleFiles` shows for a rejected file: the type is
      checked first, so a file failing both checks is reported for its type
      only. */
  function Rejection(f: File): (r: Option<string>)
    ensures r.None? <==> Acceptable(f)
    ensures !IsValidImageType(f) ==> r == Some(f.name + ": Invalid file type. Please upload images only.")
    ensures IsValidImageType(f) && !IsValidFileSize(f, DefaultMaxSize) ==>
              r == Some(f.name + ": File too large. Maximum size is 10MB.")
  {
    if !IsValidImageType(f) then Some(f.name + ": Invalid file type. Please upload images only.")
    else if !IsValidFileSize(f, DefaultMaxSize) then Some(f.name + ": File too large. Maximum size is 10MB.")
    else None
  }

  /** What `handleFiles` hands on to the upload and the messages it shows. */
  datatype Screening = Screening(valid: seq<File>, errors: seq<string>)

  /** `handleFiles(files)`: the acceptable files in their order, and one
      message per rejected file in the order of the files. */
  function HandleFiles(files: seq<File>): (r: Screening)
    ensures |r.valid| + |r.errors| == |files|
    ensures forall i :: 0 <= i < |r.valid| ==> r.valid[i] in files && Acceptable(r.valid[i])
    ensures forall i :: 0 <= i < |files| && Acceptable(files[i]) ==> files[i] in r.valid
    ensures forall k :: 0 <= k < |r.errors| ==>
              exists j :: 0 <= j < |files| && Rejection(files[j]) == Some(r.errors[k])
    decreases |files|
  {
    if |files| == 0 then Screening([], [])
    else
      var rest := HandleFiles(files[1..]);
      assert forall x :: x in files[1..] ==> x in files;
      assert forall i :: 0 < i < |files| ==> files[i] == files[1..][i - 1];
      Screen(files[0], rest)
  }

  /** One file screened in front of the screening of the files after it. */
  function Screen(f: File, rest: Screening): (r: Screening)
    ensures Acceptable(f) ==> r == Screening([f] + rest.valid, rest.errors)
    ensures !Acceptable(f) ==> r == Screening(rest.valid, [Rejection(f).value] + rest.errors)
  {
    match Rejection(f)
    case None => Screening([f] + rest.valid, rest.errors)
    case Some(message) => Screening(rest.valid, [message] + rest.errors)
  }

  /** One file on its own: handed on when acceptable, otherwise its one
      message. */
  lemma HandleOneFile(f: File)
    ensures Acceptable(f) ==> HandleFiles([f]) == Screening([f], [])
    ensures !Acceptable(f) ==> HandleFiles([f]) == Screening([], [Rejection(f).value])
  {
  }

  /** Screening works file by file: a batch screens like its two halves. */
  lemma {:induction false} HandleFilesAppend(a: seq<File>, b: seq<File>)
    ensures HandleFiles(a + b).valid == HandleFiles(a).valid + HandleFiles(b).valid
    ensures HandleFiles(a + b).errors == HandleFiles(a).errors + HandleFiles(b).errors
    decreases |a|
  {
    if |a| == 0 {
      assert a + b == b;
    } else {
      assert (a + b)[0] == a[0];
      assert (a + b)[1..] == a[1..] + b;
      HandleFilesAppend(a[1..], b);
      var ha, hb := HandleFiles(a[1..]), HandleFiles(b);
      assert HandleFiles(a[1..] + b) == Screening(ha.valid + hb.valid, ha.errors + hb.errors);
      assert HandleFiles(a + b) == Screen(a[0], Screening(ha.valid + hb.valid, ha.errors + hb.errors));
      assert HandleFiles(a) == Screen(a[0], ha);
      ScreenAppend(a[0], ha, hb);
    }
  }

  lemma ScreenAppend(f: File, x: Screening, y: Screening)
    ensures Screen(f, Screening(x.valid + y.valid, x.errors + y.errors)).valid == Screen(f, x).valid + y.valid
    ensures Screen(f, Screening(x.valid + y.valid, x.errors + y.errors)).errors == Screen(f, x).errors + y.errors
  {
    if Acceptable(f) {
      assert [f] + (x.valid + y.valid) == ([f] + x.valid) + y.valid;
    } else {
      var m := Rejection(f).value;
      assert [m] + (x.errors + y.errors) == ([m] + x.errors) + y.errors;
    }
  }

  const TypeMessage: string := "Invalid file type. Only images are allowed."
  const SizeMessage: string := "File too large. Maximum size is 10MB."

  /** `validateImage(file)`: every failed check in order, type first. */
  function ValidateImage(f: File): (r: seq<string>)
    ensures r == [] <==> Acceptable(f)
    ensures |r| <= 2
    ensures TypeMessage in r <==> !IsValidImageType(f)
    ensures SizeMessage in r <==> !IsValidFileSize(f, DefaultMaxSize)
    ensures |r| == 2 ==> r == [TypeMessage, SizeMessage]
  {
    (if IsValidImageType(f) then [] else [TypeMessage])
    + (if IsValidFileSize(f, DefaultMaxSize) then [] else [SizeMessage])
  }

  /** `handleFiles` passes a file on exactly when `validateImage` finds
      nothing wrong with it. */
  lemma ScreeningAgreesWithValidation(f: File)
    ensures HandleFiles([f]).valid == [f] <==> ValidateImage(f) == []
    ensures HandleFiles([f]).errors == [] <==> ValidateImage(f) == []
  {
    HandleOneFile(f);
  }

  // ---------------------------------------------------------------------------
  // The image list and its stored copy
  // ---------------------------------------------------------------------------

  /** An entry of `uploadedImages`. */
  datatype UploadedImage = UploadedImage(
    id: string, name: string, url: string, uploadDate: string, size: int, mimeType: string)

  /** An entry of the stored `portfolioImages` list: the same fields but the
      URL. */
  datatype StoredImage = StoredImage(
    id: string, name: string, uploadDate: string, size: int, mimeType: string)

  /** The in-memory list and the `portfolioImages` storage slot. */
  datatype UploadState = UploadState(images: seq<UploadedImage>, stored: Slot<seq<StoredImage>>)

  function Metadata(img: UploadedImage): (r: StoredImage)
    ensures r.id == img.id && r.name == img.name && r.uploadDate == img.uploadDate
    ensures r.size == img.size && r.mimeType == img.mimeType
  {
    StoredImage(img.id, img.name, img.uploadDate, img.size, img.mimeType)
  }

  /** The metadata list `saveImagesToStorage` writes: one entry per image,
      in order. */
  function Project(images: seq<UploadedImage>): (r: seq<StoredImage>)
    ensures |r| == |images|
    ensures forall i :: 0 <= i < |images| ==> r[i] == Metadata(images[i])
  {
    seq(|images|, i requires 0 <= i < |images| => Metadata(images[i]))
  }

  /** Stored metadata together with the URLs: the image list again. */
  function Restore(stored: seq<StoredImage>, urls: seq<string>): (r: seq<UploadedImage>)
    requires |urls| == |stored|
    ensures |r| == |stored|
  {
    seq(|stored|, i requires 0 <= i < |stored| =>
      UploadedImage(stored[i].id, stored[i].name, urls[i], stored[i].uploadDate,
                    stored[i].size, stored[i].mimeType))
  }

  function Urls(images: seq<UploadedImage>): (r: seq<string>)
    ensures |r| == |images| && forall i :: 0 <= i < |images| ==> r[i] == images[i].url
  {
    seq(|images|, i requires 0 <= i < |images| => images[i].url)
  }

  /** Only the URL is lost: the stored metadata and the URLs give the list
      back. */
  lemma ProjectRestore(images: seq<UploadedImage>)
    ensures Restore(Project(images), Urls(images)) == images
  {
  }

  /** Two lists with the same stored metadata differ at most in their
      URLs. */
  lemma ProjectForgetsOnlyUrls(a: seq<UploadedImage>, b: seq<UploadedImage>)
    requires Project(a) == Project(b)
    ensures |a| == |b|
    ensures forall i :: 0 <= i < |a| ==> a[i] == b[i].(url := a[i].url)
  {
    forall i | 0 <= i < |a|
      ensures a[i] == b[i].(url := a[i].url)
    {
      assert Project(a)[i] == Project(b)[i];
    }
  }

  /** `saveImagesToStorage()` */
  function SaveImagesToStorage(st: UploadState): (r: UploadState)
    ensures r.images == st.images && r.stored == Stored(Project(st.images))
  {
    st.(stored := Stored(Project(st.images)))
  }

  /** Storage mirrors the list: the metadata of every image is stored, or
      nothing is stored and the list is empty. */
  predicate InSync(st: UploadState) {
    st.stored == Stored(Project(st.images)) || (st.stored == Absent && st.images == [])
  }

  // ---------------------------------------------------------------------------
  // Adding
  // ---------------------------------------------------------------------------

  /** `addImageToGallery(file)` with the object URL and the ISO upload date
      as parameters. The id is `generateFileHash(file)`; when that throws
      (a name `btoa` cannot encode) nothing is added or saved. Otherwise the
      record is appended and the list saved. */
  function AddImageToGallery(st: UploadState, f: File, url: string, uploadDate: string): (r: UploadState)
    ensures FileHash(f).None? ==> r == st
    ensures FileHash(f).Some? ==>
              && r.images == st.images + [UploadedImage(FileHash(f).value, f.name, url, uploadDate, f.size, f.mimeType)]
              && InSync(r)
  {
    match FileHash(f)
    case None => st
    case Some(id) =>
      SaveImagesToStorage(st.(images := st.images + [UploadedImage(id, f.name, url, uploadDate, f.size, f.mimeType)]))
  }

  /** What the environment decides for one file of an upload: whether the
      simulated transfer succeeds (`Math.random() < 0.9`), and the object URL
      and upload date the record would get. */
  datatype Transfer = Transfer(succeeds: bool, url: string, uploadDate: string)

  /** `uploadFiles(files)`: each file in turn is added when its transfer
      succeeds; a failed transfer, or a name the hash cannot encode, only
      shows a message. */
  function UploadFiles(st: UploadState, files: seq<File>, transfers: seq<Transfer>): (r: UploadState)
    requires |transfers| == |files|
    ensures |st.images| <= |r.images| <= |st.images| + |files|
    ensures r.images[..|st.images|] == st.images
    decreases |files|
  {
    if |files| == 0 then st
    else
      var next := if transfers[0].succeeds
                  then AddImageToGallery(st, files[0], transfers[0].url, transfers[0].uploadDate)
                  else st;
      var r := UploadFiles(next, files[1..], transfers[1..]);
      assert r.images[..|st.images|] == next.images[..|next.images|][..|st.images|];
      r
  }

  /** An upload keeps storage in step with the list: every addition saves. */
  lemma {:induction false} UploadKeepsSync(st: UploadState, files: seq<File>, transfers: seq<Transfer>)
    requires |transfers| == |files| && InSync(st)
    ensures InSync(UploadFiles(st, files, transfers))
    decreases |files|
  {
    if |files| > 0 {
      var next := if transfers[0].succeeds
                  then AddImageToGallery(st, files[0], transfers[0].url, transfers[0].uploadDate)
                  else st;
      assert InSync(next);
      UploadKeepsSync(next, files[1..], transfers[1..]);
    }
  }

  /** The record a file gets from a successful transfer. */
  function Record(f: File, t: Transfer): UploadedImage
    requires FileHash(f).Some?
  {
    UploadedImage(FileHash(f).value, f.name, t.url, t.uploadDate, f.size, f.mimeType)
  }

  /** Every transfer succeeds and every name can be hashed. */
  predicate AllSucceed(files: seq<File>, transfers: seq<Transfer>) {
    |transfers| == |files|
    && forall i :: 0 <= i < |files| ==> transfers[i].succeeds && FileHash(files[i]).Some?
  }

  function Records(files: seq<File>, transfers: seq<Transfer>): (r: seq<UploadedImage>)
    requires AllSucceed(files, transfers)
    ensures |r| == |files|
    ensures forall i :: 0 <= i < |files| ==> r[i] == Record(files[i], transfers[i])
  {
    seq(|files|, i requires 0 <= i < |files| => Record(files[i], transfers[i]))
  }

  /** An upload in which every transfer succeeds and every name can be
      hashed appends one record per file, in the order of the files. */
  lemma {:induction false} UploadAllSucceed(st: UploadState, files: seq<File>, transfers: seq<Transfer>)
    requires AllSucceed(files, transfers)
    ensures UploadFiles(st, files, transfers).images == st.images + Records(files, transfers)
    decreases |files|
  {
    if |files| == 0 {
      assert st.images + Records(files, transfers) == st.images;
    } else {
      var next := UploadStep(st, files, transfers);
      var head, tail := [Record(files[0], transfers[0])], Records(files[1..], transfers[1..]);
      assert UploadFiles(next, files[1..], transfers[1..]).images == next.images + tail by {
        UploadAllSucceed(next, files[1..], transfers[1..]);
      }
      assert Records(files, transfers) == head + tail by {
        RecordsCons(files, transfers);
      }
      AppendAssociative(st.images, head, tail);
    }
  }

  /** The records a batch adds, in the order of the files: one for each file
      whose transfer succeeds and whose name can be hashed. */
  function Added(files: seq<File>, transfers: seq<Transfer>): (r: seq<UploadedImage>)
    requires |transfers| == |files|
    ensures |r| <= |files|
    decreases |files|
  {
    if |files| == 0 then []
    else
      var rest := Added(files[1..], transfers[1..]);
      if transfers[0].succeeds && FileHash(files[0]).Some? then [Record(files[0], transfers[0])] + rest
      else rest
  }

  /** An upload appends exactly the records of the files whose transfer
      succeeds and whose name can be hashed, in file order; a failed transfer
      adds nothing. */
  lemma {:induction false} UploadAppendsAdded(st: UploadState, files: seq<File>, transfers: seq<Transfer>)
    requires |transfers| == |files|
    ensures UploadFiles(st, files, transfers).images == st.images + Added(files, transfers)
    decreases |files|
  {
    if |files| == 0 {
      assert st.images + [] == st.images;
    } else {
      var next := if transfers[0].succeeds
                  then AddImageToGallery(st, files[0], transfers[0].url, transfers[0].uploadDate)
                  else st;
      var tail := Added(files[1..], transfers[1..]);
      assert UploadFiles(st, files, transfers) == UploadFiles(next, files[1..], transfers[1..]);
      assert UploadFiles(next, files[1..], transfers[1..]).images == next.images + tail by {
        UploadAppendsAdded(next, files[1..], transfers[1..]);
      }
      if transfers[0].succeeds && FileHash(files[0]).Some? {
        var head := [Record(files[0], transfers[0])];
        assert next.images == st.images + head;
        assert Added(files, transfers) == head + tail;
        AppendAssociative(st.images, head, tail);
      } else {
        assert next.images == st.images;
        assert Added(files, transfers) == tail;
      }
    }
  }

  /** A failed transfer adds nothing: the upload goes on with the next file
      from the same state. */
  lemma FailedTransferAddsNothing(st: UploadState, files: seq<File>, transfers: seq<Transfer>)
    requires |transfers| == |files| && |files| > 0 && !transfers[0].succeeds
    ensures UploadFiles(st, files, transfers) == UploadFiles(st, files[1..], transfers[1..])
  {
  }

  /** A batch whose every transfer fails leaves the list and its storage as
      they were. */
  lemma {:induction false} AllFailedAddsNothing(st: UploadState, files: seq<File>, transfers: seq<Transfer>)
    requires |transfers| == |files|
    requires forall i :: 0 <= i < |transfers| ==> !transfers[i].succeeds
    ensures UploadFiles(st, files, transfers) == st
    decreases |files|
  {
    if |files| > 0 {
      AllFailedAddsNothing(st, files[1..], transfers[1..]);
    }
  }

  lemma AppendAssociative<T>(a: seq<T>, b: seq<T>, c: seq<T>)
    ensures (a + b) + c == a + (b + c)
  {
  }

  /** The first file of a successful upload is added, then the rest follow. */
  lemma UploadStep(st: UploadState, files: seq<File>, transfers: seq<Transfer>) returns (next: UploadState)
    requires AllSucceed(files, transfers) && |files| > 0
    ensures next.images == st.images + [Record(files[0], transfers[0])]
    ensures AllSucceed(files[1..], transfers[1..])
    ensures UploadFiles(st, files, transfers) == UploadFiles(next, files[1..], transfers[1..])
  {
    next := AddImageToGallery(st, files[0], transfers[0].url, transfers[0].uploadDate);
  }

  lemma RecordsCons(files: seq<File>, transfers: seq<Transfer>)
    requires AllSucceed(files, transfers) && |files| > 0
    ensures AllSucceed(files[1..], transfers[1..])
    ensures Records(files, transfers) == [Record(files[0], transfers[0])] + Records(files[1..], transfers[1..])
  {
  }

  // ---------------------------------------------------------------------------
  // Removing
  // ---------------------------------------------------------------------------

  /** `findIndex(img => img.id === imageId)` */
  function FindById(images: seq<UploadedImage>, id: string): (r: Option<nat>)
    ensures r.None? <==> forall i :: 0 <= i < |images| ==> images[i].id != id
    ensures r.Some? ==> r.value < |images| && images[r.value].id == id
    ensures r.Some? ==> forall i :: 0 <= i < r.value ==> images[i].id != id
  {
    FirstIndex(images, (img: UploadedImage) => img.id == id)
  }

  /** `deleteImage(imageId)` with the answer to the confirmation dialog: a
      declined confirmation or an unknown id changes nothing; otherwise the
      first image with that id is removed, the rest keep their order, and
      the list is saved. */
  function DeleteImage(st: UploadState, confirmed: bool, id: string): (r: UploadState)
    ensures !confirmed ==> r == st
    ensures (forall i :: 0 <= i < |st.images| ==> st.images[i].id != id) ==> r == st
    ensures confirmed && FindById(st.images, id).Some? ==>
              var i := FindById(st.images, id).value;
              && r.images == st.images[..i] + st.images[i + 1..]
              && InSync(r)
  {
    if !confirmed then st
    else
      match FindById(st.images, id)
      case None => st
      case Some(i) => SaveImagesToStorage(st.(images := st.images[..i] + st.images[i + 1..]))
  }

  /** Deleting removes exactly one record when the id is known, and the
      records left are those before and after it. */
  lemma DeleteRemovesOne(st: UploadState, id: string)
    requires exists i :: 0 <= i < |st.images| && st.images[i].id == id
    ensures |DeleteImage(st, true, id).images| == |st.images| - 1
    ensures multiset(DeleteImage(st, true, id).images) + multiset{st.images[FindById(st.images, id).value]}
            == multiset(st.images)
  {
    var i := FindById(st.images, id).value;
    assert st.images == st.images[..i] + [st.images[i]] + st.images[i + 1..];
  }

  /** Deleting a record just added, under an id no earlier record has, gives
      the list back as it was. */
  lemma DeleteUndoesAdd(st: UploadState, f: File, url: string, uploadDate: string)
    requires FileHash(f).Some?
    requires forall i :: 0 <= i < |st.images| ==> st.images[i].id != FileHash(f).value
    ensures DeleteImage(AddImageToGallery(st, f, url, uploadDate), true, FileHash(f).value).images
            == st.images
  {
    var added := AddImageToGallery(st, f, url, uploadDate);
    var id := FileHash(f).value;
    var n := |st.images|;
    assert added.images[n].id == id;
    assert forall i :: 0 <= i < n ==> added.images[i] == st.images[i];
    assert FindById(added.images, id) == Some(n);
    assert added.images[..n] == st.images;
  }

  // ---------------------------------------------------------------------------
  // Loading and clearing
  // ---------------------------------------------------------------------------

  /** `loadExistingImages()`: stored metadata cannot be turned back into
      images (the URLs are gone), so whenever anything is stored, readable
      or not, the list is emptied; with nothing stored the list is left as
      it is. The stored copy is not touched. */
  function LoadExistingImages(st: UploadState): (r: UploadState)
    ensures r.stored == st.stored
    ensures st.stored.Absent? ==> r.images == st.images
    ensures !st.stored.Absent? ==> r.images == []
  {
    if st.stored.Absent? then st else st.(images := [])
  }

  /** Loading over stored metadata leaves storage describing images the list
      no longer has. */
  lemma LoadLeavesStaleMetadata(st: UploadState)
    requires st.stored.Stored? && st.stored.value != []
    ensures !InSync(LoadExistingImages(st))
  {
  }

  /** `clearUploadSession()`: the list is emptied and the stored copy
      removed. */
  function ClearUploadSession(st: UploadState): (r: UploadState)
    ensures r.images == [] && r.stored == Absent
    ensures InSync(r)
  {
    UploadState([], Absent)
  }

  /** `deleteAllImages()` with the answer to the confirmation dialog. */
  function DeleteAllImages(st: UploadState, confirmed: bool): (r: UploadState)
    ensures !confirmed ==> r == st
    ensures confirmed ==> r == ClearUploadSession(st)
  {
    if confirmed then ClearUploadSession(st) else st
  }

  /** After clearing, loading finds nothing and changes nothing. */
  lemma ClearThenLoad(st: UploadState)
    ensures LoadExistingImages(ClearUploadSession(st)) == ClearUploadSession(st)
  {
  }
}
